=== FILE: README.md ===
# UGC script pipeline page: a Dafny model

This project models the logic of `app/page.tsx`, a single-page studio for short-form video
scripts. Its logic has four parts:

- A **script agent** turns a content idea into a script (hook, body, call to action, title,
  estimated duration). The user may edit it, ask for revisions, and approve it.
- A **video-script agent** turns an approved script into a scene-by-scene production script.
- Every approval is kept in a **history** list, which is persisted in browser storage.
- The video-script tab **segments** the production script into a style directive and scenes.

The model has six modules:

- `Wrappers`: `Option` and `Result`.
- `Text`: the JavaScript string primitives the page uses, namely `trim`, `split('\n')`,
  `join` and ASCII case-insensitive prefix tests. The white-space set is ECMAScript's.
- `Payload`: the untyped agent reply (`Value`) and the two coercions that turn it into a
  `Script` or a `VideoScript`: `parseScriptResponse`, and the inline coercion of
  `handleGeneratePrompt`.
- `Retry`: the bounded retry loop the page copies three times, written once. The
  coercion that judges a reply and the three error messages are parameters. A run
  reports its result, the number of agent calls and the back-off delays it asked for.
- `Session`: the page's `useState` fields and storage slot as one `State`. Each event
  handler and input setter is a pure transition. The module states the invariant every
  transition keeps over any sequence of user actions.
- `Segmenter`: the scene view of `VideoScriptTab`. It covers the lookahead split before
  every `Scene <digits>:` header, the style block, the scene title regular expression,
  and the sorting of each scene's lines into voiceover, visual, duration and other lines.

Collaborators the page calls are parameters of the model (`Session.Env`):

- The agent, a total function from (request text, agent id, attempt number) to an outcome.
- `JSON.parse`, a partial function from text to a `Value`.
- The sample fixtures.

The storage slot is a field of the state, read through `LoadHistory`.

Where the code may surprise a reader, the model follows the code:

- `parseScriptResponse` accepts any value whose `typeof` is `'object'`, so a JSON array
  yields a script made of defaults, not "no script".
- `.replace(/^"|"$/g, '')` removes at most one double quote at each end. A voiceover
  that is a single `"` loses it once.
- With `^Scene \d+:\s*(.+)`, a header followed only by spaces is titled by the last
  non-terminator character among those spaces, because the regular expression backs off.
  A header with nothing after the colon keeps the whole header line as its title.
- The style directive is shown when the first block is not blank after trimming, not
  merely when it is non-empty.
- `handleReviseScript` does not check the script status. Only the page's rendering hides
  the revision box once a script is approved.
- A failed generation leaves the hook, body and CTA text areas as they were, while the
  script itself is cleared.
- Reusing a history entry leaves both error messages in place.

## Model

| member | source | states |
|---|---|---|
| Payload.CoerceScript | app/page.tsx:1277-1296 | A falsy payload, text that does not parse, and a non-object give no script. A string is parsed once, and then it gives a script exactly when the parsed value is an object. Each field is the object's string field under its key, or `""`; the title defaults to "Untitled Script". |
| Payload.CoerceScriptRoundTrip | app/page.tsx:1287-1295 | Coercing the JSON object form of any script gives that script back. |
| Payload.CoerceScriptFromText | app/page.tsx:1279-1295 | A reply that arrives as JSON text coerces to the script the text encodes. |
| Payload.DoubleEncodedScriptRefused | app/page.tsx:1280-1287 | Text that parses to another string is refused, because parsing happens only once. |
| Payload.ObjectAlwaysCoerces | app/page.tsx:1287-1295 | Every plain object yields a script, whatever its fields. |
| Payload.CoerceVideoScript | app/page.tsx:1448-1461 | A string is parsed once and kept as it is when parsing fails. Each of the three fields is the string under its key, or `""`. |
| Payload.CoerceVideoScriptRoundTrip | app/page.tsx:1448-1461 | The object form of a video script, and JSON text that parses to it, both coerce back to it. |
| Payload.NonObjectVideoScriptIsEmpty | app/page.tsx:1456-1463 | A payload that is not an object (directly or after parsing) yields the all-empty record, which does not count as generated. |
| Retry.ScriptCoercion | app/page.tsx:1277-1296 | A reply is usable exactly when it is truthy and is an object, after one parse when it arrives as text. The script then holds that object's hook, body, CTA and estimated duration, each `""` when not a string, and its title, "Untitled Script" when not a string. |
| Retry.AttemptError | app/page.tsx:1333-1339 | A successful call whose reply does not coerce gives the handler's parse-failure text. A failed call gives its own error when present, even an empty one, and the default failure text only when none is given. A throwing call gives the network text. |
| Retry.VideoScriptAcceptance | app/page.tsx:1447-1463 | A reply is usable exactly when the payload holds a non-empty string under "video_script". Text is parsed once first, and kept as it is when that fails. The record then holds that string and the "total_duration" and "scene_count" strings, each `""` when missing or not a string. |
| Retry.RunFrom | app/page.tsx:1315-1341 | From attempt `k` on: the loop stops at the first usable attempt, and every earlier attempt was unusable. It fails only after attempt `maxRetries`, with that attempt's error followed by " Please try again.". Attempt `j >= 1` is preceded by a delay of `1500 * j`. |
| Retry.CallWithRetry | app/page.tsx:1312-1345 | One to three calls. The loop fails exactly when no attempt is usable, and a success carries the coerced reply of the last call. The error comes from the last attempt: the unusable-reply text, the agent's own error (empty text kept, missing text defaulted), or the network text. The delays are `1500, 3000, ...`, one fewer than the calls. |
| Retry.ThreeCallsWaitTwice | app/page.tsx:1315-1317 | When the first two attempts are unusable, the loop makes three calls and waits 1500 ms and then 3000 ms. |
| Session.LoadHistory | app/page.tsx:1243-1257 | Only a stored array is taken as history. Missing, unparsable or non-array content reads as no history. |
| Session.SaveHistory | app/page.tsx:1262-1274 | The list becomes the shown history. Outside sample mode, loading the slot afterwards gives exactly that list; in sample mode the slot is untouched. No other field changes. |
| Session.GenerateRequest | app/page.tsx:1310 | The request starts with the content type and idea. The "Additional Notes" section follows exactly when the notes are non-empty, and it then ends the request. |
| Session.RevisionRequest | app/page.tsx:1356 | The request opens with the "REVISION REQUEST" heading and the title label. The current title and the edited hook, body and CTA follow, each at the offset right after its label. The user's feedback and the fixed revision instruction come last and end the request. |
| Session.Sections | app/page.tsx:1356 | Four headings, each followed by its text, and then a tail are laid out one after another. Every piece sits at the offset the lengths before it add up to, and nothing follows the tail. |
| Session.VideoScriptRequest | app/page.tsx:1436 | The approved title and the edited hook, body and CTA each sit right after their heading ("Title: ", "HOOK:", "BODY:", "CTA:"), in that order. The estimated duration, after its label, ends the request. |
| Session.RunLoop | app/page.tsx:1441-1491 | A handler's loop succeeds exactly when one of its three attempts is usable. It then yields what the first usable attempt's reply coerces to. Otherwise it reports the third attempt's error followed by " Please try again.". |
| Session.GenerateScript | app/page.tsx:1299-1346 | Does nothing when the idea is blank or a generation is running. Otherwise it clears the video script and the revision text and sets the script to draft. There is a script afterwards exactly when some attempt was usable. It is the first usable reply, coerced; the text areas then take its fields and the error is cleared. Otherwise there is no script, the text areas stay, and the error is the last attempt's error followed by " Please try again.". No field beyond the script, text areas, status, script error, video script, feedback and active agent changes. |
| Session.ReviseScript | app/page.tsx:1349-1393 | Does nothing without feedback, while revising, or without a script. It succeeds exactly when some attempt is usable. The whole script is then replaced by the first usable reply, the feedback is cleared and the text areas are refilled. On failure script, feedback and text areas stay, and the error is the last attempt's error followed by " Please try again.". No field beyond the script, text areas, script error, feedback and active agent changes. |
| Session.EditScript | app/page.tsx:546-566 | An approved script's text areas ignore input. A draft's edit changes exactly the chosen text area. |
| Session.ApproveScript | app/page.tsx:1396-1425 | Without a script nothing changes. Otherwise a new entry is prepended to the history. It carries the inputs, status approved, no video script, and a snapshot of the script whose hook, body and CTA are the edited texts. The live script becomes that snapshot and approved, the feedback is cleared, the video-script tab opens, and the list is saved. No other field changes. |
| Session.AttachVideoScript | app/page.tsx:1467-1475 | Every entry with the same idea text and status approved (not only the first) gets the video script and the status prompt-generated. All other entries are unchanged, and the length is kept. |
| Session.GenerateVideoScript | app/page.tsx:1428-1494 | Does nothing unless the script is approved and no run is in flight. A video script results exactly when some attempt is usable. It is then the first usable reply, non-empty, attached to the matching history entries, and saved. On failure there is no video script, the history and storage stay, and the error is the last attempt's error followed by " Please try again.". No field beyond the video script, its error, history, storage and active agent changes. |
| Session.ReuseIdea | app/page.tsx:1507-1519 | The entry's idea, type and notes return. The script, text areas, feedback and video script are cleared, the status is draft and the studio tab opens. No other field changes: history, storage, error messages, sample mode and the in-flight flags stay. |
| Session.ClearHistory | app/page.tsx:1522-1524 | The history becomes empty and is saved under the sample-mode rule. No other field changes. |
| Session.ClearEmptiesStorage | app/page.tsx:1522-1524 | Outside sample mode, the storage slot afterwards loads as the empty list. |
| Session.ApplySampleMode | app/page.tsx:1216-1259 | Turning sample mode on shows the fixtures' idea, type, notes, script (in the text areas too), video script and history, with an approved script. Turning it off empties the idea, notes and text areas, restores the "General" type, clears script and video script to a draft, and reloads the history from storage (empty when the slot holds no array). Both ways the feedback is cleared, no revision runs, storage is untouched, and no other field changes. |
| Session.ToggleSample | app/page.tsx:1216-1259 | Setting the switch to the value it already has changes nothing. Changing it runs the sample-mode effect for the new value: on shows the fixtures, off clears the outputs and reloads history from storage. Either way the switch ends at the new value and storage is never written. |
| Session.Initial | app/page.tsx:1201-1213 | After mounting, the history is what the slot loads as (empty when it holds no array), with no script and a draft status. |
| Session.SetInput | app/page.tsx:1557-1576 | Typing into the idea, notes or feedback input, or picking a content type, sets exactly that input and nothing else. |
| Session.SelectTab | app/page.tsx:1545 | Choosing a tab changes only the active tab. |
| Session.InitialInvariant | app/page.tsx:1201-1259 | A freshly mounted page over a well-formed slot satisfies the invariant. |
| Session.AttachKeepsWellFormed | app/page.tsx:1467-1475 | Attaching a video script keeps every entry's status consistent with what it carries. |
| Session.GenerateKeepsInvariant | app/page.tsx:1299-1346 | Generating a script keeps the invariant. |
| Session.ReviseKeepsInvariant | app/page.tsx:1349-1393 | Revising keeps the invariant. |
| Session.ApproveKeepsInvariant | app/page.tsx:1396-1425 | Approving keeps the invariant; the saved list is the shown list. |
| Session.VideoScriptKeepsInvariant | app/page.tsx:1428-1494 | Generating a video script keeps the invariant. |
| Session.SampleKeepsInvariant | app/page.tsx:1216-1259 | Switching sample mode keeps the invariant when the fixtures are well formed. |
| Session.StepKeepsInvariant | app/page.tsx:1299-1524 | Every handler keeps the invariant. Nothing is in flight between actions. Approved means a script exists, and a video script means approved. Every history entry's status matches its contents. Outside sample mode the shown history is the stored one. |
| Session.RunKeepsInvariant | app/page.tsx:1299-1576 | The invariant holds after any sequence of the modelled user actions: the handlers, the text-area edits, the input setters, the tab bar and the sample switch. |
| Session.ApproveThenVideoScript | app/page.tsx:1410-1476 | Approving and then generating a video script updates the new entry in place. The history keeps its length, and when a video script results, the first entry carries it with status prompt-generated. |
| Session.TypeFeedbackThenRevise | app/page.tsx:1349-1393 | Typing non-blank feedback with a script present lets "revise" run. It then clears the feedback exactly when some attempt of the revision loop is usable. |
| Segmenter.SceneWordIsPrefixMatch | app/page.tsx:849 | The header word test is the same case-insensitive prefix test used for the line labels. |
| Segmenter.HeadersDoNotOverlap | app/page.tsx:849 | No header begins inside another header. |
| Segmenter.BlocksFrom | app/page.tsx:849 | The text from an offset is cut before every later header. The pieces concatenate back to it, and there is one more piece than there are headers. Each later piece begins with its header and has no other header. |
| Segmenter.Blocks | app/page.tsx:849 | The same for the whole text: there is no cut at offset 0, so a text that opens with a header gives a first block that begins with it. |
| Segmenter.FirstBlockStartsLikeText | app/page.tsx:849-850 | The first block begins with a header exactly when the text does. |
| Segmenter.Segment | app/page.tsx:849-862 | There is a style directive exactly when the text does not open with a header and its first block is not blank. The directive is that block trimmed, less a leading "Style:" label. The scenes are the remaining non-blank blocks, each rendered by `SceneOf`. |
| Segmenter.SceneCountIsHeaderCount | app/page.tsx:849-851 | There is exactly one scene per header occurrence in the text, and every scene block begins with a header. |
| Segmenter.StripStyleLabel | app/page.tsx:862 | The result is a suffix of the style block. A block that starts with "Style:" in any case loses that label and the white space after it, up to the first character that is not a space. Any other block is shown unchanged. |
| Segmenter.KindIsOwnLabel | app/page.tsx:882-889 | A trimmed line is a voiceover, visual or duration line exactly when it starts with that label in any case. It is an other line exactly when it starts with none of them. Because no line starts with two labels, the order of the tests does not matter. |
| Segmenter.LabelsExclusive | app/page.tsx:882-886 | No line starts with two of the three labels. |
| Segmenter.ContentAfterLabel | app/page.tsx:882-889 | A visual or duration line contributes what follows its label once the white space after it is skipped. A voiceover contributes the same, less at most one quote at each end. An other line contributes the whole trimmed line. |
| Segmenter.TrimStartAfter | app/page.tsx:862 | Skipping white space after a label of length `n` leaves a suffix of the line: only white space lies between the label and it, and it does not start with a space. |
| Segmenter.SceneOf | app/page.tsx:867-891 | A scene's title comes from its first non-blank line, or is `""` when the block has none. Its voiceover, visual and other lists are the contents of the lines of each kind after the header, in order. Those lists and the duration lines together number exactly the lines after the header. The duration is the last duration line's content, or `""`. |
| Segmenter.StripQuotes | app/page.tsx:883 | A leading quote and a trailing quote are each removed, independently of the other; a lone quote is removed once. The input is the result with exactly the removed quotes put back. |
| Segmenter.ClassifyLines | app/page.tsx:874-891 | The loop over a scene's lines produces, for each kind, the label-stripped contents of the lines of that kind, in order. The duration is the last duration line's content. |
| Segmenter.PickPartitions | app/page.tsx:880-891 | Every line lands in exactly one of the four kinds. |
| Segmenter.LastDurationIsLastPicked | app/page.tsx:886-887 | Last wins: the duration shown is the last of all duration contents, or `""` when there are none. |
| Segmenter.SceneKeepsEveryLine | app/page.tsx:868-891 | No line after the header is lost. Voiceover, visual, other and duration lines together number exactly the lines after the header, and the duration is the last of the duration lines. |
| Segmenter.TitleAfterHeader | app/page.tsx:870-871 | There is no match exactly when nothing but line terminators follows the colon. A title never holds a line terminator. When something follows the spaces after the colon, the title is that text up to its first line terminator. Otherwise the title is the last character that is not a line terminator. |
| Segmenter.LastOrdinary | app/page.tsx:871 | The backed-off `.+` takes the last character that is not a line terminator, alone; there is none exactly when every character is a line terminator. |
| Segmenter.TitleOfOneLine | app/page.tsx:870-871 | On a line with no line terminator, the title is everything after the colon and the spaces that follow it. |
| Segmenter.SceneTitle | app/page.tsx:869-871 | A line without a header, or a header with nothing after its colon, is its own title. |
| Segmenter.HeaderLineOfScene | app/page.tsx:868-869 | A block that begins with a header keeps it at the start of its first non-blank line after trimming and splitting. |
| Segmenter.SceneTitleFromHeader | app/page.tsx:868-871 | Each scene's title comes from its header line. It is the whole header line when only line terminators (or nothing) follow the colon. When text follows the spaces, the title is that text up to its first line terminator, such as the `\r` a CRLF text leaves. When only spaces follow, it is the last of them that is not a line terminator. |

## Left out

- Rendering: the JSX, the markdown renderer, `formatDate`, the look of the tab bar, the history expand toggle, the status badges and the "joined with spaces" display of scene lines.
- The copy button with its two-second reset: clipboard and timers are outside the model.
- The back-off timer is not run; each delay the loop requests is recorded as a number in `Retry.Run.delays`.
- Asynchrony: every handler is one atomic step, so interleaved clicks and stale closures over `history` or `showSample` are not modelled.
- The agent client, `JSON.parse`, `JSON.stringify` and local storage are parameters or a state field. A stored list is assumed to load back as the list that was saved, and storage writes never fail.
- `Date.now()` and `new Date().toISOString()` are the `id` and `now` arguments of `Session.ApproveScript`.
- Session.LoadHistory: a stored array is taken as a list of well-typed entries. An array holding anything else, such as `[null]` or entries with missing fields, is not modelled.
- Session.GenerateVideoScript: on such a stored array, `history.map` (app/page.tsx:1467-1469) would throw inside the loop's `try` after the video script has been set. The model does not cover that run.
- Session.ReuseIdea: entries are typed in the model, so the `?? ''` and `?? 'General'` fallbacks for missing fields of a stored entry never apply.
- Session.SetInput: the content type is any string here; the page offers a fixed set of chips.
- The sample fixtures are parameters; their content is not modelled, only that sample mode shows them and suppresses persistence.
- Numbers and booleans in a reply are modelled only by their truthiness, which is all the coercions look at.

=== FILE: payload.dfy ===
/** The agent's untyped reply and the two coercions that turn it into the page's records:
    `parseScriptResponse` (a script or nothing) and the inline video-script coercion of
    `handleGeneratePrompt` (always a record, judged by its main text). */
module Payload {
  import opened Wrappers

  /** A JavaScript value as the agent client hands it over. `Scalar` stands for numbers
      and booleans, remembering only whether the value is truthy; `Arr` is a JSON array,
      which `typeof` reports as an object. */
  datatype Value =
    | Absent
    | Null
    | Scalar(truthy: bool)
    | Str(s: string)
    | Obj(fields: map<string, Value>)
    | Arr(items: seq<Value>)

  /** `JSON.parse` on a string: `None` when it throws. It is a parameter of the model. */
  type JsonParser = string -> Option<Value>

  /** A generated short-form script (the page's `ScriptData`). */
  datatype Script = Script(hook: string, body: string, cta: string, title: string, estimatedDuration: string)

  /** A production script derived from an approved script (the page's `VideoScriptData`). */
  datatype VideoScript = VideoScript(videoScript: string, totalDuration: string, sceneCount: string)

  const UntitledScript: string := "Untitled Script"

  /** The values `!data` is true of. */
  predicate Falsy(v: Value) {
    v.Absent? || v.Null? || (v.Scalar? && !v.truthy) || (v.Str? && v.s == "")
  }

  /** `typeof v === 'object' && v !== null`. */
  predicate IsObject(v: Value) {
    v.Obj? || v.Arr?
  }

  /** `obj?.key` when it is a string, `None` for anything else (a missing key, another
      type, or an owner that is not a plain object). */
  function StringField(v: Value, key: string): (r: Option<string>)
    ensures r.Some? <==> v.Obj? && key in v.fields && v.fields[key].Str?
    ensures r.Some? ==> r.value == v.fields[key].s
  {
    if v.Obj? && key in v.fields && v.fields[key].Str? then Some(v.fields[key].s) else None
  }

  /** The value `parseScriptResponse` inspects once it has dealt with strings: a string is
      parsed exactly once, anything else is used as it is. */
  function ParsedOnce(v: Value, parse: JsonParser): Option<Value> {
    if v.Str? then parse(v.s) else Some(v)
  }

  /** `parseScriptResponse`. A falsy payload, a string that does not parse and a value
      that is not an object give `None`; every object gives a script whose fields are
      the object's string fields, defaulted to `""` (the title to "Untitled Script"). */
  function CoerceScript(v: Value, parse: JsonParser): (r: Option<Script>)
    ensures Falsy(v) ==> r.None?
    ensures v.Str? && parse(v.s).None? ==> r.None?
    ensures !Falsy(v) && !v.Str? ==> (r.Some? <==> IsObject(v))
    ensures !Falsy(v) && v.Str? && parse(v.s).Some? ==> (r.Some? <==> IsObject(parse(v.s).value))
    ensures r.Some? ==>
      var o := ParsedOnce(v, parse).value;
      && r.value.hook == StringField(o, "hook").GetOr("")
      && r.value.body == StringField(o, "body").GetOr("")
      && r.value.cta == StringField(o, "cta").GetOr("")
      && r.value.title == StringField(o, "title").GetOr(UntitledScript)
      && r.value.estimatedDuration == StringField(o, "estimated_duration").GetOr("")
  {
    if Falsy(v) then None
    else
      match ParsedOnce(v, parse)
      case None => None
      case Some(o) =>
        if !IsObject(o) then None
        else Some(Script(
          StringField(o, "hook").GetOr(""),
          StringField(o, "body").GetOr(""),
          StringField(o, "cta").GetOr(""),
          StringField(o, "title").GetOr(UntitledScript),
          StringField(o, "estimated_duration").GetOr("")))
  }

  /** The inline coercion of `handleGeneratePrompt`: a string is parsed once and kept as
      it is when parsing fails; each field is the string found under its key, or `""`. */
  function CoerceVideoScript(v: Value, parse: JsonParser): (r: VideoScript)
    ensures var o := if v.Str? then parse(v.s).GetOr(v) else v;
      && r.videoScript == StringField(o, "video_script").GetOr("")
      && r.totalDuration == StringField(o, "total_duration").GetOr("")
      && r.sceneCount == StringField(o, "scene_count").GetOr("")
  {
    var o := if v.Str? then parse(v.s).GetOr(v) else v;
    VideoScript(
      StringField(o, "video_script").GetOr(""),
      StringField(o, "total_duration").GetOr(""),
      StringField(o, "scene_count").GetOr(""))
  }

  /** A video script counts as generated only when its main text is not empty. */
  predicate IsGenerated(v: VideoScript) {
    v.videoScript != ""
  }

  /** The JSON object the script agent is asked to produce for `s`. */
  function ScriptJson(s: Script): Value {
    Obj(map[
      "hook" := Str(s.hook), "body" := Str(s.body), "cta" := Str(s.cta),
      "title" := Str(s.title), "estimated_duration" := Str(s.estimatedDuration)])
  }

  /** The JSON object the video-script agent is asked to produce for `v`. */
  function VideoScriptJson(v: VideoScript): Value {
    Obj(map[
      "video_script" := Str(v.videoScript), "total_duration" := Str(v.totalDuration),
      "scene_count" := Str(v.sceneCount)])
  }

  /** Coercing the object form of a script gives that script back. */
  lemma CoerceScriptRoundTrip(s: Script, parse: JsonParser)
    ensures CoerceScript(ScriptJson(s), parse) == Some(s)
  {
  }

  /** A reply that arrives as JSON text coerces to the script the text encodes. */
  lemma CoerceScriptFromText(s: Script, text: string, parse: JsonParser)
    requires text != "" && parse(text) == Some(ScriptJson(s))
    ensures CoerceScript(Str(text), parse) == Some(s)
  {
  }

  /** Text that parses to another string (a double-encoded reply) is refused: the
      coercion parses only once. */
  lemma DoubleEncodedScriptRefused(text: string, inner: string, parse: JsonParser)
    requires parse(text) == Some(Str(inner))
    ensures CoerceScript(Str(text), parse) == None
  {
  }

  /** Every plain object coerces to a script, whatever fields it has. */
  lemma ObjectAlwaysCoerces(fields: map<string, Value>, parse: JsonParser)
    ensures CoerceScript(Obj(fields), parse).Some?
  {
  }

  /** Coercing the object form of a video script gives it back, from the object itself
      and from JSON text that parses to it. */
  lemma CoerceVideoScriptRoundTrip(v: VideoScript, text: string, parse: JsonParser)
    requires parse(text) == Some(VideoScriptJson(v))
    ensures CoerceVideoScript(VideoScriptJson(v), parse) == v
    ensures CoerceVideoScript(Str(text), parse) == v
  {
  }

  /** Nothing but a plain object (directly or as parsed text) yields a non-empty field:
      every other payload coerces to the all-empty record and does not count as generated. */
  lemma NonObjectVideoScriptIsEmpty(v: Value, parse: JsonParser)
    requires !v.Obj? && !(v.Str? && parse(v.s).Some? && parse(v.s).value.Obj?)
    ensures CoerceVideoScript(v, parse) == VideoScript("", "", "")
    ensures !IsGenerated(CoerceVideoScript(v, parse))
  {
  }
}

=== FILE: retry.dfy ===
/** The bounded retry loop the page repeats in `handleGenerateScript`,
    `handleReviseScript` and `handleGeneratePrompt`: up to `maxRetries + 1` agent calls,
    a linear back-off before every call but the first, and a final message built from
    the last attempt's error. The three copies differ only in their messages and in the
    coercion that decides whether a reply is usable; both are parameters here. */
module Retry {
  import opened Wrappers
  import opened Payload

  /** What one agent call ends with: a reply (`success: true`), a reported failure whose
      `error` may be missing, or a thrown exception. */
  datatype AgentOutcome = Ok(reply: Value) | Fail(error: Option<string>) | Throws

  /** The error texts one copy of the loop records. */
  datatype Messages = Messages(unusable: string, failed: string, network: string)

  /** The observable trace of one run of the loop: its result (a value or the text shown
      to the user), the number of agent calls, and the delays requested in order. */
  datatype Run<T> = Run(result: Result<T, string>, calls: nat, delays: seq<nat>)

  const MaxRetries: nat := 2
  const BaseDelayMs: nat := 1500
  const TryAgain: string := " Please try again."

  const GenerateMessages: Messages :=
    Messages("Could not parse script response.", "Failed to generate script.", "A network error occurred.")
  const ReviseMessages: Messages :=
    Messages("Could not parse revised script response.", "Failed to revise script.",
             "A network error occurred during revision.")
  const VideoScriptMessages: Messages :=
    Messages("Video script was empty.", "Failed to generate video script.", "A network error occurred.")

  /** An attempt whose reply the coercion accepts. */
  predicate Usable<T>(o: AgentOutcome, coerce: Value -> Option<T>) {
    o.Ok? && coerce(o.reply).Some?
  }

  /** The error an unusable attempt leaves in `lastError`: `result.error ?? failed`
      keeps an empty error text, and only a missing one is replaced. */
  function AttemptError<T>(o: AgentOutcome, coerce: Value -> Option<T>, msgs: Messages): (e: string)
    ensures o.Ok? ==> e == msgs.unusable
    ensures o.Fail? && o.error.Some? ==> e == o.error.value
    ensures o.Fail? && o.error.None? ==> e == msgs.failed
    ensures o.Throws? ==> e == msgs.network
  {
    match o
    case Ok(_) => msgs.unusable
    case Fail(e) => e.GetOr(msgs.failed)
    case Throws => msgs.network
  }

  /** The back-off requested before attempt `k`. */
  function Delay(k: nat): nat {
    BaseDelayMs * k
  }

  /** The loop from attempt `k` on. `first` is the first attempt that asks for a delay. */
  function RunFrom<T>(attempt: nat -> AgentOutcome, coerce: Value -> Option<T>, msgs: Messages,
                      maxRetries: nat, k: nat): (r: Run<T>)
    requires k <= maxRetries
    ensures k < r.calls <= maxRetries + 1
    ensures forall j :: k <= j < r.calls - 1 ==> !Usable(attempt(j), coerce)
    ensures r.result.Success? <==> Usable(attempt(r.calls - 1), coerce)
    ensures r.result.Success? ==> Some(r.result.value) == coerce(attempt(r.calls - 1).reply)
    ensures r.result.Failure? ==>
      r.calls == maxRetries + 1 && r.result.error == AttemptError(attempt(maxRetries), coerce, msgs) + TryAgain
    ensures var first := if k == 0 then 1 else k;
      |r.delays| == r.calls - first && forall j :: 0 <= j < |r.delays| ==> r.delays[j] == Delay(first + j)
    decreases maxRetries - k
  {
    var waits := if k == 0 then [] else [Delay(k)];
    var o := attempt(k);
    if Usable(o, coerce) then Run(Success(coerce(o.reply).value), k + 1, waits)
    else if k == maxRetries then Run(Failure(AttemptError(o, coerce, msgs) + TryAgain), k + 1, waits)
    else
      var rest := RunFrom(attempt, coerce, msgs, maxRetries, k + 1);
      Run(rest.result, rest.calls, waits + rest.delays)
  }

  /** The whole loop. It stops at the first usable reply; if none of the `maxRetries + 1`
      attempts is usable it reports the last attempt's error followed by " Please try
      again."; attempt `k >= 1` is preceded by a request to wait `1500 * k` ms. */
  function CallWithRetry<T>(attempt: nat -> AgentOutcome, coerce: Value -> Option<T>, msgs: Messages,
                            maxRetries: nat): (r: Run<T>)
    ensures 1 <= r.calls <= maxRetries + 1
    ensures forall j :: 0 <= j < r.calls - 1 ==> !Usable(attempt(j), coerce)
    ensures r.result.Success? <==> Usable(attempt(r.calls - 1), coerce)
    ensures r.result.Success? ==> Some(r.result.value) == coerce(attempt(r.calls - 1).reply)
    ensures r.result.Failure? <==> forall j :: 0 <= j <= maxRetries ==> !Usable(attempt(j), coerce)
    ensures r.result.Failure? ==>
      r.calls == maxRetries + 1 && r.result.error == AttemptError(attempt(maxRetries), coerce, msgs) + TryAgain
    ensures |r.delays| == r.calls - 1 && forall j :: 0 <= j < |r.delays| ==> r.delays[j] == Delay(j + 1)
  {
    RunFrom(attempt, coerce, msgs, maxRetries, 0)
  }

  /** With the page's two retries, a run that needs all three calls has asked to wait
      1500 ms and then 3000 ms, 4500 ms in all. */
  lemma ThreeCallsWaitTwice<T>(attempt: nat -> AgentOutcome, coerce: Value -> Option<T>, msgs: Messages)
    requires !Usable(attempt(0), coerce) && !Usable(attempt(1), coerce)
    ensures CallWithRetry(attempt, coerce, msgs, MaxRetries).calls == 3
    ensures CallWithRetry(attempt, coerce, msgs, MaxRetries).delays == [1500, 3000]
  {
    var r := CallWithRetry(attempt, coerce, msgs, MaxRetries);
    assert r.delays[0] == Delay(1) && r.delays[1] == Delay(2);
  }

  /** The coercion the script loops use: `parseScriptResponse`. A reply is usable exactly
      when it is truthy and, parsed once if it is text, an object; the script then holds
      that object's string fields, defaulted. */
  function ScriptCoercion(parse: JsonParser): (c: Value -> Option<Script>)
    ensures forall v :: c(v).Some? <==>
      !Falsy(v) && ParsedOnce(v, parse).Some? && IsObject(ParsedOnce(v, parse).value)
    ensures forall v :: c(v).Some? ==>
      var o := ParsedOnce(v, parse).value;
      c(v).value == Script(
        StringField(o, "hook").GetOr(""), StringField(o, "body").GetOr(""),
        StringField(o, "cta").GetOr(""), StringField(o, "title").GetOr(UntitledScript),
        StringField(o, "estimated_duration").GetOr(""))
  {
    v => CoerceScript(v, parse)
  }

  /** The coercion the video-script loop uses: the inline record, accepted only when its
      main text is not empty. `VideoScriptAcceptance` states this in terms of the payload. */
  function VideoScriptCoercion(parse: JsonParser): (c: Value -> Option<VideoScript>)
    ensures forall v :: c(v).Some? <==> IsGenerated(CoerceVideoScript(v, parse))
    ensures forall v :: c(v).Some? ==> c(v).value == CoerceVideoScript(v, parse)
  {
    v => var vs := CoerceVideoScript(v, parse); if IsGenerated(vs) then Some(vs) else None
  }

  /** What the video-script loop accepts, in terms of the payload: the value (parsed once
      if it is text, kept when that fails) holds a non-empty string under "video_script",
      and the record then holds the three string fields. */
  lemma VideoScriptAcceptance(parse: JsonParser, v: Value)
    ensures var o := if v.Str? then parse(v.s).GetOr(v) else v;
      && (VideoScriptCoercion(parse)(v).Some? <==> StringField(o, "video_script").GetOr("") != "")
      && (VideoScriptCoercion(parse)(v).Some? ==>
            VideoScriptCoercion(parse)(v).value == VideoScript(StringField(o, "video_script").GetOr(""),
              StringField(o, "total_duration").GetOr(""), StringField(o, "scene_count").GetOr("")))
  {
  }
}

=== FILE: segmenter.dfy ===
/** The scene segmenter of `VideoScriptTab`: the flat video-script text is split before
    every `Scene <digits>:` header (any letter case, even in mid-line), a leading block
    that is not a scene becomes the style directive, and each scene's lines are sorted
    into voiceover, visual, duration and other lines. */
module Segmenter {
  import opened Wrappers
  import opened Text

  // ---------------------------------------------------------------------------
  // Scene headers
  // ---------------------------------------------------------------------------

  /** `/Scene /i` at offset `i`: the word "scene" in any ASCII letter case, then a space. */
  predicate SceneWordAt(s: string, i: nat) {
    && i + 6 <= |s|
    && Lower(s[i]) == 's' && Lower(s[i + 1]) == 'c' && Lower(s[i + 2]) == 'e'
    && Lower(s[i + 3]) == 'n' && Lower(s[i + 4]) == 'e' && s[i + 5] == ' '
  }

  /** The word test is the case-insensitive prefix test used for the other markers. */
  lemma SceneWordIsPrefixMatch(s: string, i: nat)
    ensures SceneWordAt(s, i) <==> MatchesAt(s, i, "scene ")
  {
    if MatchesAt(s, i, "scene ") {
      assert Lower(s[i + 5]) == ' ';
    }
  }

  /** The number of consecutive ASCII digits at `s[j..]`. */
  function DigitRun(s: string, j: nat): (n: nat)
    ensures j + n <= |s| || n == 0
    ensures forall k :: j <= k < j + n ==> IsDigit(s[k])
    ensures j + n < |s| ==> !IsDigit(s[j + n])
    decreases |s| - j
  {
    if j < |s| && IsDigit(s[j]) then 1 + DigitRun(s, j + 1) else 0
  }

  /** `/^Scene \d+:/i` matches at offset `i` of `s`. */
  predicate HeaderAt(s: string, i: nat) {
    && SceneWordAt(s, i)
    && DigitRun(s, i + 6) >= 1
    && i + 6 + DigitRun(s, i + 6) < |s|
    && s[i + 6 + DigitRun(s, i + 6)] == ':'
  }

  /** The offset just after the colon of the header at `i`. */
  function HeaderEnd(s: string, i: nat): (e: nat)
    requires HeaderAt(s, i)
    ensures i + 8 <= e <= |s|
  {
    i + 6 + DigitRun(s, i + 6) + 1
  }

  /** A header begins with an `s` or an `S`, which is neither a space nor a newline. */
  lemma HeaderStartsSolid(s: string, i: nat)
    requires HeaderAt(s, i)
    ensures Lower(s[i]) == 's' && !IsSpace(s[i])
  {
  }

  /** After its first character a header holds only the letters "cene", a space, digits
      and the colon, none of which is an `s` in either case. */
  lemma HeaderChar(s: string, i: nat, j: nat)
    requires HeaderAt(s, i) && i < j < HeaderEnd(s, i)
    ensures Lower(s[j]) != 's'
  {
    if i + 6 <= j {
      assert IsDigit(s[j]) || s[j] == ':';
    }
  }

  /** A header ends with its colon. */
  lemma HeaderEndsWithColon(s: string, i: nat)
    requires HeaderAt(s, i)
    ensures s[HeaderEnd(s, i) - 1] == ':'
  {
  }

  /** No header begins inside another one: none of the characters after its first can
      start the word "scene". */
  lemma HeadersDoNotOverlap(s: string, i: nat, j: nat)
    requires HeaderAt(s, i) && i < j < HeaderEnd(s, i)
    ensures !HeaderAt(s, j)
  {
    HeaderChar(s, i, j);
  }

  /** The digits of a header read the same in any window that holds the whole header. */
  lemma {:induction false} DigitRunInWindow(s: string, a: nat, b: nat, j: nat)
    requires a <= j <= b <= |s|
    requires j + DigitRun(s, j) < b
    ensures DigitRun(s[a..b], j - a) == DigitRun(s, j)
    decreases |s| - j
  {
    if j < |s| && IsDigit(s[j]) {
      DigitRunInWindow(s, a, b, j + 1);
    }
  }

  /** A run of `d` digits followed by a non-digit inside the text is the whole run. */
  lemma {:induction false} DigitRunBound(s: string, j: nat, d: nat)
    requires j + d < |s| && !IsDigit(s[j + d])
    requires forall k :: j <= k < j + d ==> IsDigit(s[k])
    ensures DigitRun(s, j) == d
    decreases d
  {
    if d > 0 {
      assert IsDigit(s[j]);
      DigitRunBound(s, j + 1, d - 1);
    }
  }

  /** A header that fits inside the window `s[a..b]` is a header of the window. */
  lemma HeaderIntoWindow(s: string, a: nat, b: nat, i: nat)
    requires a <= i && b <= |s| && HeaderAt(s, i) && HeaderEnd(s, i) <= b
    ensures HeaderAt(s[a..b], i - a) && HeaderEnd(s[a..b], i - a) == HeaderEnd(s, i) - a
  {
    var w := s[a..b];
    DigitRunInWindow(s, a, b, i + 6);
    forall k | i - a <= k < i - a + 6
      ensures w[k] == s[k + a]
    {
    }
  }

  /** Every header of a window `s[a..b]` is a header of the text. */
  lemma HeaderOutOfWindow(s: string, a: nat, b: nat, i: nat)
    requires a <= i <= b <= |s| && HeaderAt(s[a..b], i - a)
    ensures HeaderAt(s, i)
  {
    var w := s[a..b];
    var d := DigitRun(w, i - a + 6);
    forall k | i + 6 <= k < i + 6 + d
      ensures IsDigit(s[k])
    {
      assert w[k - a] == s[k];
    }
    assert w[i - a + 6 + d] == s[i + 6 + d];
    DigitRunBound(s, i + 6, d);
    forall k | i <= k < i + 6
      ensures w[k - a] == s[k]
    {
    }
  }

  /** A header that fits inside the window `s[a..b]` is a header of the window, and
      every header of a window is a header of the text. */
  lemma HeaderInWindow(s: string, a: nat, b: nat, i: nat)
    requires a <= i && a <= b <= |s|
    ensures HeaderAt(s, i) && HeaderEnd(s, i) <= b ==> HeaderAt(s[a..b], i - a)
    ensures i <= b && HeaderAt(s[a..b], i - a) ==> HeaderAt(s, i)
  {
    if HeaderAt(s, i) && HeaderEnd(s, i) <= b {
      HeaderIntoWindow(s, a, b, i);
    }
    if i <= b && HeaderAt(s[a..b], i - a) {
      HeaderOutOfWindow(s, a, b, i);
    }
  }

  /** The first header at or after `from`, or `|s|` when there is none. */
  function NextHeader(s: string, from: nat): (q: nat)
    ensures q == |s| || (from <= q < |s| && HeaderAt(s, q))
    ensures forall j :: from <= j < q ==> !HeaderAt(s, j)
    decreases |s| - from
  {
    if from >= |s| then |s|
    else if HeaderAt(s, from) then from
    else NextHeader(s, from + 1)
  }

  /** The number of headers at offsets `from` and beyond. */
  function CountHeaders(s: string, from: nat): nat
    decreases |s| - from
  {
    if from >= |s| then 0
    else (if HeaderAt(s, from) then 1 else 0) + CountHeaders(s, from + 1)
  }

  lemma {:induction false} NoHeadersBetween(s: string, from: nat, q: nat)
    requires from <= q
    requires forall j :: from <= j < q ==> !HeaderAt(s, j)
    ensures CountHeaders(s, from) == CountHeaders(s, q)
    decreases q - from
  {
    if from < q {
      NoHeadersBetween(s, from + 1, q);
    }
  }

  // ---------------------------------------------------------------------------
  // Splitting into blocks
  // ---------------------------------------------------------------------------

  /** The blocks joined back into one text, with nothing between them. */
  function Concat(parts: seq<string>): string {
    if |parts| == 0 then "" else parts[0] + Concat(parts[1..])
  }

  /** The first block from offset `p` ends at `q`, the next header after `p` (or the end
      of the text): it begins with a header when the text has one at `p`, and it has no
      header anywhere else. */
  lemma BlockBetweenHeaders(s: string, p: nat, q: nat)
    requires p <= q <= |s| && (p < q || q == |s|)
    requires forall j :: p < j < q ==> !HeaderAt(s, j)
    requires q == |s| || HeaderAt(s, q)
    ensures HeaderAt(s, p) ==> HeaderAt(s[p..q], 0)
    ensures forall j :: 0 < j < q - p ==> !HeaderAt(s[p..q], j)
  {
    if HeaderAt(s, p) {
      if HeaderEnd(s, p) > q {
        HeadersDoNotOverlap(s, p, q);
      }
      HeaderInWindow(s, p, q, p);
    }
    forall j | 0 < j < q - p
      ensures !HeaderAt(s[p..q], j)
    {
      HeaderInWindow(s, p, q, p + j);
    }
  }

  /** Putting a header-free block in front of blocks that each begin with their only
      header keeps every block but the first beginning with its only header. */
  lemma PrependBlock(b: string, rest: seq<string>)
    requires |rest| >= 1 && HeaderAt(rest[0], 0)
    requires forall k :: 0 < k < |rest| ==> HeaderAt(rest[k], 0)
    requires forall k, j :: 0 <= k < |rest| && 0 < j < |rest[k]| ==> !HeaderAt(rest[k], j)
    requires forall j :: 0 < j < |b| ==> !HeaderAt(b, j)
    ensures var r := [b] + rest;
      && (forall k :: 0 < k < |r| ==> HeaderAt(r[k], 0))
      && (forall k, j :: 0 <= k < |r| && 0 < j < |r[k]| ==> !HeaderAt(r[k], j))
    ensures Concat([b] + rest) == b + Concat(rest)
  {
    var r := [b] + rest;
    assert r[1..] == rest;
    forall k | 0 < k < |r|
      ensures r[k] == rest[k - 1]
    {
    }
  }

  /** `r` is how `raw.split(/(?=Scene \d+:)/gi)` cuts `s[p..]`: the pieces concatenate
      back to it, there is one more piece than there are headers after `p` (the split
      never cuts at the very start), the first piece begins with a header when the text
      has one at `p`, every later piece begins with a header, and no piece has a header
      anywhere but at its start. */
  predicate SplitFrom(s: string, p: nat, r: seq<string>)
    requires p <= |s|
  {
    && |r| >= 1 && Concat(r) == s[p..]
    && |r| == 1 + CountHeaders(s, p + 1)
    && (HeaderAt(s, p) ==> HeaderAt(r[0], 0))
    && (forall k :: 0 < k < |r| ==> HeaderAt(r[k], 0))
    && (forall k, j :: 0 <= k < |r| && 0 < j < |r[k]| ==> !HeaderAt(r[k], j))
  }

  /** The split of the text from offset `p` on. */
  function BlocksFrom(s: string, p: nat): (r: seq<string>)
    requires p <= |s|
    ensures SplitFrom(s, p, r)
    decreases |s| - p
  {
    var q := NextHeader(s, p + 1);
    if q >= |s| then
      LastBlock(s, p);
      [s[p..|s|]]
    else
      var rest := BlocksFrom(s, q);
      FrontBlock(s, p, q, rest);
      [s[p..q]] + rest
  }

  /** With no header after `p`, the rest of the text is one block. */
  lemma LastBlock(s: string, p: nat)
    requires p <= |s| && NextHeader(s, p + 1) >= |s|
    ensures SplitFrom(s, p, [s[p..|s|]])
  {
    NoHeadersBetween(s, p + 1, |s| + 1);
    BlockBetweenHeaders(s, p, |s|);
    assert Concat([s[p..|s|]]) == s[p..|s|] + Concat([]);
  }

  /** The block from `p` to the next header `q`, put in front of the blocks from `q`,
      gives the blocks from `p`. */
  lemma FrontBlock(s: string, p: nat, q: nat, rest: seq<string>)
    requires p < q < |s| && q == NextHeader(s, p + 1)
    requires SplitFrom(s, q, rest)
    ensures SplitFrom(s, p, [s[p..q]] + rest)
  {
    NoHeadersBetween(s, p + 1, q);
    BlockBetweenHeaders(s, p, q);
    PrependBlock(s[p..q], rest);
    assert s[p..] == s[p..q] + s[q..];
  }

  /** The blocks of the whole text: they concatenate back to it, there is one more than
      there are headers after offset 0, every block but the first begins with a header,
      and no block has a header anywhere but at its start. */
  function Blocks(s: string): (r: seq<string>)
    ensures |r| >= 1 && Concat(r) == s
    ensures |r| == 1 + CountHeaders(s, 1)
    ensures HeaderAt(s, 0) ==> HeaderAt(r[0], 0)
    ensures forall k :: 0 < k < |r| ==> HeaderAt(r[k], 0)
    ensures forall k, j :: 0 <= k < |r| && 0 < j < |r[k]| ==> !HeaderAt(r[k], j)
  {
    BlocksFrom(s, 0)
  }

  /** The first block is the text up to the first header after offset 0, so it begins
      with a header exactly when the text does. */
  lemma FirstBlockStartsLikeText(s: string)
    ensures HeaderAt(Blocks(s)[0], 0) <==> HeaderAt(s, 0)
  {
    var r := Blocks(s);
    assert s == r[0] + Concat(r[1..]);
    assert s[..|r[0]|] == r[0];
    HeaderInWindow(s, 0, |r[0]|, 0);
  }

  // ---------------------------------------------------------------------------
  // Scenes
  // ---------------------------------------------------------------------------

  /** The four kinds of line in a scene, checked in this order. */
  datatype LineKind = VoiceoverLine | VisualLine | DurationLine | OtherLine

  const VoPrefix: string := "vo:"
  const VisualPrefix: string := "visual:"
  const DurationPrefix: string := "duration:"

  /** The kind of a trimmed line: its labels are tested in order. */
  function KindOf(l: string): LineKind {
    if StartsWithCI(l, VoPrefix) then VoiceoverLine
    else if StartsWithCI(l, VisualPrefix) then VisualLine
    else if StartsWithCI(l, DurationPrefix) then DurationLine
    else OtherLine
  }

  /** `.replace(/^"|"$/g, '')`: one leading and one trailing double quote go; a lone
      quote is removed once. */
  function StripQuotes(s: string): (r: string)
    ensures var lead := |s| > 0 && s[0] == '"';
      var trail := |s| > (if lead then 1 else 0) && s[|s| - 1] == '"';
      s == (if lead then "\"" else "") + r + (if trail then "\"" else "")
  {
    var a := if |s| > 0 && s[0] == '"' then 1 else 0;
    var b := if |s| > a && s[|s| - 1] == '"' then |s| - 1 else |s|;
    s[a..b]
  }

  /** What a trimmed line of kind `kind` contributes: its text after the label and the
      spaces that follow it; a voiceover also loses its surrounding quotes. */
  function Content(l: string, kind: LineKind): string
    requires KindOf(l) == kind
  {
    match kind
    case VoiceoverLine => StripQuotes(TrimStart(l[|VoPrefix|..]))
    case VisualLine => TrimStart(l[|VisualPrefix|..])
    case DurationLine => TrimStart(l[|DurationPrefix|..])
    case OtherLine => l
  }

  /** What a labelled line contributes is what follows its label once the white space
      after it is skipped; a voiceover has at most one quote taken off each end of that,
      and an unlabelled line contributes itself. */
  lemma ContentAfterLabel(l: string, kind: LineKind)
    requires KindOf(l) == kind
    ensures kind == OtherLine ==> Content(l, kind) == l
    ensures kind == VisualLine ==> AfterLabel(l, |VisualPrefix|, Content(l, kind))
    ensures kind == DurationLine ==> AfterLabel(l, |DurationPrefix|, Content(l, kind))
    ensures kind == VoiceoverLine ==>
      var u := TrimStart(l[|VoPrefix|..]);
      var r := Content(l, kind);
      AfterLabel(l, |VoPrefix|, u) && (u == r || u == "\"" + r || u == r + "\"" || u == "\"" + r + "\"")
  {
    match kind
    case VoiceoverLine =>
      TrimStartAfter(l, |VoPrefix|);
      StripQuotesCases(TrimStart(l[|VoPrefix|..]));
    case VisualLine =>
      TrimStartAfter(l, |VisualPrefix|);
    case DurationLine =>
      TrimStartAfter(l, |DurationPrefix|);
    case OtherLine =>
  }

  /** The order of the tests does not matter, because no line starts with two of the
      labels: each kind is exactly "starts with its own label", and the other lines are
      those that start with none. */
  lemma KindIsOwnLabel(l: string)
    ensures KindOf(l) == VoiceoverLine <==> StartsWithCI(l, VoPrefix)
    ensures KindOf(l) == VisualLine <==> StartsWithCI(l, VisualPrefix)
    ensures KindOf(l) == DurationLine <==> StartsWithCI(l, DurationPrefix)
    ensures KindOf(l) == OtherLine <==>
      !StartsWithCI(l, VoPrefix) && !StartsWithCI(l, VisualPrefix) && !StartsWithCI(l, DurationPrefix)
  {
    LabelsExclusive(l);
  }

  /** No line starts with two of the labels: they already differ in their first two
      letters. */
  lemma LabelsExclusive(l: string)
    ensures !(StartsWithCI(l, VoPrefix) && StartsWithCI(l, VisualPrefix))
    ensures !(StartsWithCI(l, VoPrefix) && StartsWithCI(l, DurationPrefix))
    ensures !(StartsWithCI(l, VisualPrefix) && StartsWithCI(l, DurationPrefix))
  {
    if StartsWithCI(l, VoPrefix) {
      assert Lower(l[0]) == 'v' && Lower(l[1]) == 'o';
    }
    if StartsWithCI(l, VisualPrefix) {
      assert Lower(l[0]) == 'v' && Lower(l[1]) == 'i';
    }
    if StartsWithCI(l, DurationPrefix) {
      assert Lower(l[0]) == 'd';
    }
  }

  /** Skipping the white space after the first `n` characters leaves what follows them. */
  lemma TrimStartAfter(l: string, n: nat)
    requires n <= |l|
    ensures AfterLabel(l, n, TrimStart(l[n..]))
  {
    var s := l[n..];
    SkippedSpaceIsAfterLabel(l, n, s, TrimStart(s));
  }

  /** What is left of `l[n..]` after a blank prefix that does not stop at a space is what
      follows the first `n` characters of `l` once the white space after them is skipped. */
  lemma SkippedSpaceIsAfterLabel(l: string, n: nat, s: string, u: string)
    requires n <= |l| && s == l[n..]
    requires |u| <= |s| && u == s[|s| - |u|..] && IsBlank(s[..|s| - |u|])
    requires |u| > 0 ==> !IsSpace(u[0])
    ensures AfterLabel(l, n, u)
  {
    var d := |s| - |u|;
    SuffixOfSlice(l, n, d);
    BlankInSlice(l, n, d);
    assert |l| - |u| == n + d;
  }

  /** A suffix of `l[n..]` is a suffix of `l`. */
  lemma SuffixOfSlice(l: string, n: nat, d: nat)
    requires n + d <= |l|
    ensures l[n..][d..] == l[n + d..]
  {
  }

  /** A blank prefix of `l[n..]` is a blank stretch of `l`. */
  lemma BlankInSlice(l: string, n: nat, d: nat)
    requires n + d <= |l| && IsBlank(l[n..][..d])
    ensures IsBlank(l[n..n + d])
  {
    assert l[n..][..d] == l[n..n + d];
  }

  /** `StripQuotes` took off nothing, a leading quote, a trailing quote, or both. */
  lemma StripQuotesCases(s: string)
    ensures var r := StripQuotes(s);
      s == r || s == "\"" + r || s == r + "\"" || s == "\"" + r + "\""
  {
  }

  /** `u` is what follows the first `n` characters of `l` once the white space after
      them is skipped. */
  predicate AfterLabel(l: string, n: nat, u: string) {
    n + |u| <= |l| && u == l[|l| - |u|..] && IsBlank(l[n..|l| - |u|]) && (|u| > 0 ==> !IsSpace(u[0]))
  }

  /** The contributions of the lines of kind `kind`, in order. */
  function Pick(lines: seq<string>, kind: LineKind): (r: seq<string>)
    ensures |r| <= |lines|
    decreases |lines|
  {
    if |lines| == 0 then []
    else
      var l := Trim(lines[|lines| - 1]);
      Pick(lines[..|lines| - 1], kind) + if KindOf(l) == kind then [Content(l, kind)] else []
  }

  /** The duration a scene shows: the last duration line's, or `""`. */
  function LastDuration(lines: seq<string>): string
    decreases |lines|
  {
    if |lines| == 0 then ""
    else
      var l := Trim(lines[|lines| - 1]);
      if KindOf(l) == DurationLine then Content(l, DurationLine) else LastDuration(lines[..|lines| - 1])
  }

  /** Every line lands in exactly one kind: the four picks together are as long as the
      lines. */
  lemma {:induction false} PickPartitions(lines: seq<string>)
    ensures |Pick(lines, VoiceoverLine)| + |Pick(lines, VisualLine)| + |Pick(lines, DurationLine)|
            + |Pick(lines, OtherLine)| == |lines|
    decreases |lines|
  {
    if |lines| > 0 {
      PickPartitions(lines[..|lines| - 1]);
    }
  }

  /** Last wins: the duration shown is the last of all the duration contributions, so
      only earlier duration lines are ever dropped. */
  lemma {:induction false} LastDurationIsLastPicked(lines: seq<string>)
    ensures var d := Pick(lines, DurationLine);
      LastDuration(lines) == if |d| == 0 then "" else d[|d| - 1]
    decreases |lines|
  {
    if |lines| > 0 {
      var init := lines[..|lines| - 1];
      LastDurationIsLastPicked(init);
      var isDuration, c := DurationOfLastLine(lines);
      LastOfAppended(Pick(init, DurationLine), Pick(lines, DurationLine), isDuration, c);
    }
  }

  /** What the last line adds to the durations picked and to the duration shown. */
  lemma DurationOfLastLine(lines: seq<string>) returns (isDuration: bool, c: string)
    requires |lines| > 0
    ensures var init := lines[..|lines| - 1];
      && Pick(lines, DurationLine) == Pick(init, DurationLine) + (if isDuration then [c] else [])
      && LastDuration(lines) == if isDuration then c else LastDuration(init)
  {
    var l := Trim(lines[|lines| - 1]);
    isDuration := KindOf(l) == DurationLine;
    c := if isDuration then Content(l, DurationLine) else "";
  }

  /** Appending at most one element `c` to `before`: the last element is `c` when it was
      appended, and otherwise the last of `before`. */
  lemma LastOfAppended(before: seq<string>, d: seq<string>, appended: bool, c: string)
    requires d == before + (if appended then [c] else [])
    ensures appended ==> |d| > 0 && d[|d| - 1] == c
    ensures !appended ==> d == before
  {
  }

  /** What one more line adds to each pick and to the duration. */
  lemma PickStep(rest: seq<string>, i: nat)
    requires i < |rest|
    ensures var l := Trim(rest[i]);
      && (forall kind :: Pick(rest[..i + 1], kind) ==
            Pick(rest[..i], kind) + if KindOf(l) == kind then [Content(l, kind)] else [])
      && LastDuration(rest[..i + 1]) ==
            if KindOf(l) == DurationLine then Content(l, DurationLine) else LastDuration(rest[..i])
  {
    assert rest[..i + 1][..i] == rest[..i];
  }

  /** The `rest.forEach` loop of a scene, as written: each trimmed line is matched against
      the voiceover, visual and duration labels in that order and pushed to one list;
      a later duration overwrites an earlier one. */
  method ClassifyLines(rest: seq<string>) returns (voiceover: seq<string>, visual: seq<string>,
                                                   duration: string, other: seq<string>)
    ensures voiceover == Pick(rest, VoiceoverLine) && visual == Pick(rest, VisualLine)
    ensures other == Pick(rest, OtherLine) && duration == LastDuration(rest)
  {
    voiceover, visual, duration, other := [], [], "", [];
    var i := 0;
    while i < |rest|
      invariant 0 <= i <= |rest|
      invariant voiceover == Pick(rest[..i], VoiceoverLine) && visual == Pick(rest[..i], VisualLine)
      invariant other == Pick(rest[..i], OtherLine) && duration == LastDuration(rest[..i])
    {
      PickStep(rest, i);
      var l := Trim(rest[i]);
      if StartsWithCI(l, VoPrefix) {
        voiceover := voiceover + [StripQuotes(TrimStart(l[|VoPrefix|..]))];
      } else if StartsWithCI(l, VisualPrefix) {
        visual := visual + [TrimStart(l[|VisualPrefix|..])];
      } else if StartsWithCI(l, DurationPrefix) {
        duration := TrimStart(l[|DurationPrefix|..]);
      } else {
        other := other + [l];
      }
      i := i + 1;
    }
    assert rest[..i] == rest;
  }

  /** One parsed scene; the lists are shown joined with single spaces. */
  datatype Scene = Scene(title: string, visual: seq<string>, voiceover: seq<string>,
                         duration: string, other: seq<string>)

  /** `headerLine.match(/^Scene \d+:\s*(.+)/i)`, given what follows the colon: the
      spaces are skipped greedily and, if nothing else is left, the engine backs off so
      that `.+` takes the last character that is not a line terminator. */
  function TitleAfterHeader(after: string): (r: Option<string>)
    ensures r.None? <==> forall k :: 0 <= k < |after| ==> IsLineTerminator(after[k])
    ensures r.Some? ==> OneLine(r.value)
    ensures var u := TrimStart(after);
      u != [] ==> && r.Some? && 1 <= |r.value| <= |u| && r.value == u[..|r.value|]
                  && (|r.value| == |u| || IsLineTerminator(u[|r.value|]))
    ensures TrimStart(after) == [] && r.Some? ==> LastOrdinaryOf(after, r.value)
  {
    var u := TrimStart(after);
    if u != [] then
      FirstLineOfSolidText(after, u);
      Some(u[..LineLength(u)])
    else LastOrdinary(after)
  }

  /** After the spaces, the first line of solid text is a non-empty single line that ends
      where the text or a line terminator does; the text before the spaces holds a
      character a `.` matches. */
  lemma FirstLineOfSolidText(after: string, u: string)
    requires u == TrimStart(after) && u != []
    ensures var n := LineLength(u);
      && 1 <= n <= |u| && OneLine(u[..n]) && (n == |u| || IsLineTerminator(u[n]))
    ensures exists k :: 0 <= k < |after| && !IsLineTerminator(after[k])
  {
    LineOfSolidText(u);
    SolidTextHasOrdinary(after);
    FirstLineIsOneLine(u);
  }

  /** The first line of a text is a single line. */
  lemma FirstLineIsOneLine(u: string)
    ensures OneLine(u[..LineLength(u)])
  {
    var n := LineLength(u);
    forall k | 0 <= k < n
      ensures !IsLineTerminator(u[..n][k])
    {
      assert u[..n][k] == u[k];
    }
  }

  /** Text with something after its leading spaces holds a character that is not a line
      terminator. */
  lemma SolidTextHasOrdinary(after: string)
    requires TrimStart(after) != []
    ensures exists k :: 0 <= k < |after| && !IsLineTerminator(after[k])
  {
    var u := TrimStart(after);
    LineTerminatorIsSpace(u[0]);
    assert after[|after| - |u|] == u[0];
  }

  /** Text with no line terminator in it: what `.` matches throughout. */
  predicate OneLine(s: string) {
    forall k :: 0 <= k < |s| ==> !IsLineTerminator(s[k])
  }

  /** On a single line with something after the spaces, the title is all of it. */
  lemma TitleOfOneLine(after: string)
    requires TrimStart(after) != [] && OneLine(after)
    ensures TitleAfterHeader(after) == Some(TrimStart(after))
  {
    var u := TrimStart(after);
    OneLineSuffix(after, |after| - |u|);
    LineOfSolidText(u);
    assert u[..|u|] == u;
  }

  /** Every suffix of a single line is a single line. */
  lemma OneLineSuffix(s: string, i: nat)
    requires OneLine(s) && i <= |s|
    ensures OneLine(s[i..])
  {
    forall k | 0 <= k < |s[i..]|
      ensures !IsLineTerminator(s[i..][k])
    {
      assert s[i..][k] == s[i + k];
    }
  }

  /** Text that starts with a non-space character has a non-empty first line, which is
      all of it when it is a single line. */
  lemma LineOfSolidText(u: string)
    requires u != [] && !IsSpace(u[0])
    ensures 1 <= LineLength(u) <= |u|
    ensures OneLine(u) ==> LineLength(u) == |u|
  {
    LineTerminatorIsSpace(u[0]);
  }

  /** The length of the longest prefix of `s` without a line terminator. */
  function LineLength(s: string): (n: nat)
    ensures n <= |s|
    ensures forall k :: 0 <= k < n ==> !IsLineTerminator(s[k])
    ensures n < |s| ==> IsLineTerminator(s[n])
  {
    if |s| == 0 || IsLineTerminator(s[0]) then 0 else 1 + LineLength(s[1..])
  }

  /** `title` is the last character of `s` that is not a line terminator, alone: only
      line terminators follow it. */
  predicate LastOrdinaryOf(s: string, title: string) {
    exists k :: 0 <= k < |s| && title == [s[k]] && !IsLineTerminator(s[k])
      && forall j :: k < j < |s| ==> IsLineTerminator(s[j])
  }

  /** The last character of an all-space string that a `.` can match, alone. */
  function LastOrdinary(s: string): (r: Option<string>)
    ensures r.Some? ==> LastOrdinaryOf(s, r.value)
    ensures r.None? <==> forall k :: 0 <= k < |s| ==> IsLineTerminator(s[k])
  {
    if |s| == 0 then None
    else if !IsLineTerminator(s[|s| - 1]) then
      assert LastOrdinaryOf(s, [s[|s| - 1]]);
      Some([s[|s| - 1]])
    else
      var r := LastOrdinary(s[..|s| - 1]);
      LastOrdinaryPastTerminator(s, s[..|s| - 1], r);
      r
  }

  /** A trailing line terminator changes neither the last ordinary character nor its
      absence. */
  lemma LastOrdinaryPastTerminator(s: string, init: string, r: Option<string>)
    requires |s| > 0 && IsLineTerminator(s[|s| - 1]) && init == s[..|s| - 1]
    requires r.Some? ==> LastOrdinaryOf(init, r.value)
    requires r.None? <==> forall k :: 0 <= k < |init| ==> IsLineTerminator(init[k])
    ensures r.Some? ==> LastOrdinaryOf(s, r.value)
    ensures r.None? <==> forall k :: 0 <= k < |s| ==> IsLineTerminator(s[k])
  {
    assert forall k :: 0 <= k < |init| ==> init[k] == s[k];
    if r.Some? {
      var k :| 0 <= k < |init| && r.value == [init[k]] && !IsLineTerminator(init[k])
        && forall j :: k < j < |init| ==> IsLineTerminator(init[j]);
      assert forall j :: k < j < |s| ==> IsLineTerminator(s[j]);
    }
  }

  /** A scene's title: the text after its header, or the whole header line when the
      pattern does not match. */
  function SceneTitle(headerLine: string): (r: string)
    ensures !HeaderAt(headerLine, 0) ==> r == headerLine
    ensures HeaderAt(headerLine, 0) && HeaderEnd(headerLine, 0) == |headerLine| ==> r == headerLine
  {
    if !HeaderAt(headerLine, 0) then headerLine
    else TitleAfterHeader(headerLine[HeaderEnd(headerLine, 0)..]).GetOr(headerLine)
  }

  /** The non-blank lines of a trimmed scene block. */
  function SceneLines(block: string): seq<string> {
    NonBlank(SplitLines(Trim(block)))
  }

  /** One scene block rendered into a scene: the title comes from its first non-blank
      line, and every later line is a voiceover, visual or other line of the scene or one
      of its duration lines, of which the last is the scene's duration. */
  function SceneOf(block: string): (r: Scene)
    ensures var lines := SceneLines(block);
      var rest := if |lines| > 0 then lines[1..] else [];
      var durations := Pick(rest, DurationLine);
      && r.title == (if |lines| > 0 then SceneTitle(lines[0]) else "")
      && r.voiceover == Pick(rest, VoiceoverLine) && r.visual == Pick(rest, VisualLine)
      && r.other == Pick(rest, OtherLine)
      && |r.voiceover| + |r.visual| + |r.other| + |durations| == |rest|
      && r.duration == (if |durations| == 0 then "" else durations[|durations| - 1])
  {
    var lines := SceneLines(block);
    var header := if |lines| > 0 then lines[0] else "";
    var rest := if |lines| > 0 then lines[1..] else [];
    PickPartitions(rest);
    LastDurationIsLastPicked(rest);
    Scene(SceneTitle(header), Pick(rest, VisualLine), Pick(rest, VoiceoverLine), LastDuration(rest),
          Pick(rest, OtherLine))
  }

  /** A block that begins with a header keeps that header at the start of its first
      non-blank line, so its title comes from the header. */
  lemma HeaderLineOfScene(block: string)
    requires HeaderAt(block, 0)
    ensures |SceneLines(block)| >= 1 && HeaderAt(SceneLines(block)[0], 0)
  {
    HeaderSurvivesTrim(block);
    var t := Trim(block);
    HeaderSurvivesSplit(t);
    var lines := SplitLines(t);
    HeaderStartsSolid(lines[0], 0);
    assert !IsBlank(lines[0]);
  }

  /** Trimming a text that begins with a header keeps the header. */
  lemma HeaderSurvivesTrim(block: string)
    requires HeaderAt(block, 0)
    ensures HeaderAt(Trim(block), 0)
  {
    var e := HeaderEnd(block, 0);
    HeaderStartsSolid(block, 0);
    HeaderEndsWithColon(block, 0);
    TrimKeepsSolidStart(block, e);
    var t := Trim(block);
    HeaderIntoWindow(block, 0, e, 0);
    assert t[0..e] == block[0..e];
    HeaderOutOfWindow(t, 0, e, 0);
  }

  /** The first line of a text that begins with a header begins with it too. */
  lemma HeaderSurvivesSplit(t: string)
    requires HeaderAt(t, 0)
    ensures HeaderAt(SplitLines(t)[0], 0)
  {
    var n := IndexOf(t, '\n');
    NewlineAfterHeader(t, n);
    HeaderIntoWindow(t, 0, n, 0);
    assert t[0..n] == t[..n] == SplitLines(t)[0];
  }

  /** The first newline of a text that begins with a header comes after the header. */
  lemma NewlineAfterHeader(t: string, n: nat)
    requires HeaderAt(t, 0) && n == IndexOf(t, '\n')
    ensures HeaderEnd(t, 0) <= n <= |t|
  {
    HeaderHasNoNewline(t, 0);
  }

  /** A scene is titled from its header line: by what follows the colon, spaces skipped
      and cut at the first line terminator, or by the whole header line when nothing
      follows the colon. */
  lemma SceneTitleFromHeader(block: string)
    requires HeaderAt(block, 0)
    ensures |SceneLines(block)| >= 1 && HeaderAt(SceneLines(block)[0], 0)
    ensures var h := SceneLines(block)[0];
      var after := h[HeaderEnd(h, 0)..];
      var title := SceneOf(block).title;
      var u := TrimStart(after);
      && ((forall k :: 0 <= k < |after| ==> IsLineTerminator(after[k])) ==> title == h)
      && (u != [] ==>
            && 1 <= |title| <= |u| && title == u[..|title|] && OneLine(title)
            && (|title| == |u| || IsLineTerminator(u[|title|])))
      && (u != [] && OneLine(after) ==> title == u)
      && (u == [] && !(forall k :: 0 <= k < |after| ==> IsLineTerminator(after[k])) ==>
            LastOrdinaryOf(after, title))
  {
    HeaderLineOfScene(block);
    var h := SceneLines(block)[0];
    assert SceneOf(block).title == SceneTitle(h);
    var after := h[HeaderEnd(h, 0)..];
    if TrimStart(after) != [] && OneLine(after) {
      TitleOfOneLine(after);
    }
  }

  /** Every line after a scene's header is accounted for: it is a voiceover, visual or
      other line of the scene, or one of its duration lines, of which the last is the
      scene's duration. */
  lemma SceneKeepsEveryLine(block: string)
    ensures var lines := SceneLines(block);
      var rest := if |lines| > 0 then lines[1..] else [];
      var sc := SceneOf(block);
      var durations := Pick(rest, DurationLine);
      && |sc.voiceover| + |sc.visual| + |sc.other| + |durations| == |rest|
      && sc.duration == if |durations| == 0 then "" else durations[|durations| - 1]
  {
    var lines := SceneLines(block);
    var rest := if |lines| > 0 then lines[1..] else [];
    PickPartitions(rest);
    LastDurationIsLastPicked(rest);
  }

  /** A header holds no newline. */
  lemma HeaderHasNoNewline(s: string, i: nat)
    requires HeaderAt(s, i)
    ensures forall k :: i <= k < HeaderEnd(s, i) ==> s[k] != '\n'
  {
    HeaderStartsSolid(s, i);
    forall k | i < k < HeaderEnd(s, i)
      ensures s[k] != '\n'
    {
      HeaderChar(s, i, k);
    }
  }

  // ---------------------------------------------------------------------------
  // The whole segmentation
  // ---------------------------------------------------------------------------

  /** The style directive and the scenes of a video script. */
  datatype Segmented = Segmented(style: Option<string>, scenes: seq<Scene>)

  /** The style block's `replace`: a leading "Style:" label, matched ignoring case, and
      the white space after it go. */
  function StripStyleLabel(s: string): (r: string)
    ensures |r| <= |s| && r == s[|s| - |r|..]
    ensures StartsWithCI(s, "style:") ==> AfterLabel(s, 6, r)
    ensures !StartsWithCI(s, "style:") ==> r == s
  {
    if StartsWithCI(s, "style:") then
      TrimStartAfter(s, 6);
      TrimStart(s[6..])
    else s
  }

  /** The blocks that become scenes: all of them, less a leading block that does not
      begin with a header. */
  function SceneBlocks(text: string): seq<string> {
    var blocks := Blocks(text);
    NonBlank(if HeaderAt(blocks[0], 0) then blocks else blocks[1..])
  }

  /** The scene view. The style directive is shown when the text does not open with a
      header and its first block is not blank; the scenes are the blocks that remain. */
  function Segment(text: string): (r: Segmented)
    ensures var blocks := Blocks(text);
      r.style.Some? <==> !HeaderAt(text, 0) && !IsBlank(blocks[0])
    ensures r.style.Some? ==> r.style.value == StripStyleLabel(Trim(Blocks(text)[0]))
    ensures |r.scenes| == |SceneBlocks(text)|
    ensures forall k :: 0 <= k < |r.scenes| ==> r.scenes[k] == SceneOf(SceneBlocks(text)[k])
  {
    var blocks := Blocks(text);
    FirstBlockStartsLikeText(text);
    TrimEmptyIffBlank(blocks[0]);
    var style := if HeaderAt(blocks[0], 0) then None else Some(Trim(blocks[0]));
    var shown := if style.Some? && style.value != "" then Some(StripStyleLabel(style.value)) else None;
    Segmented(shown, ScenesOf(SceneBlocks(text)))
  }

  /** One scene per block, in order. */
  function ScenesOf(blocks: seq<string>): (r: seq<Scene>)
    ensures |r| == |blocks|
    ensures forall k :: 0 <= k < |r| ==> r[k] == SceneOf(blocks[k])
  {
    if |blocks| == 0 then [] else [SceneOf(blocks[0])] + ScenesOf(blocks[1..])
  }

  /** Every occurrence of a header in the text yields one scene, and every scene block
      begins with its header, so every scene is titled from a header. */
  lemma SceneCountIsHeaderCount(text: string)
    ensures |SceneBlocks(text)| == CountHeaders(text, 0)
    ensures forall k :: 0 <= k < |SceneBlocks(text)| ==> HeaderAt(SceneBlocks(text)[k], 0)
  {
    var blocks := Blocks(text);
    FirstBlockStartsLikeText(text);
    var candidates := if HeaderAt(blocks[0], 0) then blocks else blocks[1..];
    assert |candidates| == CountHeaders(text, 0);
    assert forall k :: 0 <= k < |candidates| ==> HeaderAt(candidates[k], 0);
    forall k | 0 <= k < |candidates|
      ensures !IsBlank(candidates[k])
    {
      HeaderStartsSolid(candidates[k], 0);
    }
    assert SceneBlocks(text) == candidates;
  }
}

=== FILE: session.dfy ===
/** The page's authoring session: the `useState` fields of `Page`, one pure transition
    per event handler, the history list with its storage slot, and the invariants every
    transition keeps. Each asynchronous handler is modelled as one atomic step that runs
    its retry loop to the end. */
module Session {
  import opened Wrappers
  import opened Text
  import opened Payload
  import opened Retry

  datatype Tab = StudioTab | VideoScriptTab | HistoryTab

  /** The live script's status. */
  datatype ScriptStatus = Draft | Approved

  /** A history entry's status; `PromptGenerated` is the page's `'prompt_generated'`. */
  datatype ItemStatus = ItemDraft | ItemApproved | PromptGenerated

  /** One past session. `id` and `createdAt` come from the clock and are opaque here. */
  datatype HistoryItem = HistoryItem(
    id: string,
    contentIdea: string,
    contentType: string,
    notes: string,
    scriptData: Option<Script>,
    promptData: Option<VideoScript>,
    status: ItemStatus,
    createdAt: string)

  /** What the storage slot `ugc_pipeline_history` holds, as the loader sees it: nothing
      (or an empty string), text that does not parse, a parsed value that is not an
      array, or an array of entries. */
  datatype StoredHistory = NoEntry | Unparsable | NotAnArray | Entries(items: seq<HistoryItem>)

  /** The sample fixtures shown while sample mode is on. */
  datatype Fixture = Fixture(
    contentIdea: string, contentType: string, notes: string,
    script: Script, videoScript: VideoScript, history: seq<HistoryItem>)

  /** The collaborators the handlers call: the agent (request text, agent id, attempt
      number), `JSON.parse`, and the sample fixtures. */
  datatype Env = Env(agent: (string, string, nat) -> AgentOutcome, parse: JsonParser, sample: Fixture)

  /** The `useState` fields of `Page` that the handlers read or write, plus the storage slot. */
  datatype State = State(
    activeTab: Tab,
    showSample: bool,
    contentIdea: string,
    contentType: string,
    notes: string,
    isGeneratingScript: bool,
    scriptErrorMessage: string,
    scriptData: Option<Script>,
    editableHook: string,
    editableBody: string,
    editableCta: string,
    scriptStatus: ScriptStatus,
    revisionInput: string,
    isRevising: bool,
    isGeneratingPrompt: bool,
    videoScriptData: Option<VideoScript>,
    promptErrorMessage: string,
    history: seq<HistoryItem>,
    activeAgentId: Option<string>,
    storage: StoredHistory)

  const ScriptAgentId: string := "699357fe777b6c1c03678e87"
  const VideoAgentId: string := "699357e6b175ad1ab1aed1ef"
  const DefaultContentType: string := "General"
  const NotesSection: string := "\n\nAdditional Notes: "
  const RevisionInstruction: string :=
    "\n\nPlease revise the script based on the feedback above. Keep the same JSON output format."

  // ---------------------------------------------------------------------------
  // Storage
  // ---------------------------------------------------------------------------

  /** The loader: only an array is taken; anything else reads as "no history". */
  function LoadHistory(slot: StoredHistory): (r: Option<seq<HistoryItem>>)
    ensures r.Some? <==> slot.Entries?
    ensures r.Some? ==> r.value == slot.items
  {
    match slot
    case Entries(items) => Some(items)
    case _ => None
  }

  /** `saveHistory`: the list becomes the shown history and, outside sample mode, the
      content of the storage slot. */
  function SaveHistory(s: State, updated: seq<HistoryItem>): (t: State)
    ensures t.history == updated
    ensures !s.showSample ==> LoadHistory(t.storage) == Some(updated)
    ensures s.showSample ==> t.storage == s.storage
    ensures t.(history := s.history, storage := s.storage) == s
  {
    s.(history := updated, storage := if s.showSample then s.storage else Entries(updated))
  }

  /** The slot after a save, as seen from the state before it. */
  predicate SavedAs(s: State, t: State) {
    if s.showSample then t.storage == s.storage else t.storage == Entries(t.history)
  }

  // ---------------------------------------------------------------------------
  // Requests sent to the agents
  // ---------------------------------------------------------------------------

  function GenerateHead(contentType: string, idea: string): string {
    "Content Type: " + contentType + "\n\nContent Idea: " + idea
  }

  /** The generation request: content type and idea, then an "Additional Notes" section
      exactly when the notes are non-empty (blank notes still count as present). */
  function GenerateRequest(contentType: string, idea: string, notes: string): (m: string)
    ensures var head := GenerateHead(contentType, idea);
      && |head| <= |m| && m[..|head|] == head
      && (|m| == |head| <==> notes == "")
      && (notes != "" ==> m[|head|..] == NotesSection + notes)
  {
    GenerateHead(contentType, idea) + if notes != "" then NotesSection + notes else ""
  }

  /** `m` holds `part` at offset `at`. */
  predicate HoldsAt(m: string, at: nat, part: string) {
    at + |part| <= |m| && m[at..at + |part|] == part
  }

  /** Both halves of a concatenation sit where they were put. */
  lemma HoldsInConcat(x: string, y: string)
    ensures HoldsAt(x + y, 0, x) && HoldsAt(x + y, |x|, y)
  {
    assert (x + y)[..|x|] == x;
    assert (x + y)[|x|..|x| + |y|] == y;
  }

  /** Appending text keeps what an earlier offset holds. */
  lemma HoldsAfterAppend(x: string, y: string, at: nat, part: string)
    requires HoldsAt(x, at, part)
    ensures HoldsAt(x + y, at, part)
  {
    assert (x + y)[at..at + |part|] == x[at..at + |part|];
  }

  /** What a piece holds, the whole holds at the piece's offset plus its own. */
  lemma HoldsWithin(m: string, at: nat, piece: string, at2: nat, part: string)
    requires HoldsAt(m, at, piece) && HoldsAt(piece, at2, part)
    ensures HoldsAt(m, at + at2, part)
  {
    forall k | 0 <= k < |part|
      ensures m[at + at2 + k] == part[k]
    {
      assert m[at..at + |piece|][at2 + k] == piece[at2 + k];
      assert piece[at2..at2 + |part|][k] == part[k];
    }
    assert m[at + at2..at + at2 + |part|] == part;
  }

  /** A heading, its text, and whatever follows, one after another. */
  function Labelled(heading: string, text: string, rest: string): (m: string)
    ensures HoldsAt(m, 0, heading) && HoldsAt(m, |heading|, text) && HoldsAt(m, |heading| + |text|, rest)
    ensures |m| == |heading| + |text| + |rest|
  {
    HoldsInConcat(heading, text);
    HoldsInConcat(heading + text, rest);
    HoldsAfterAppend(heading + text, rest, 0, heading);
    HoldsAfterAppend(heading + text, rest, |heading|, text);
    heading + text + rest
  }

  /** `m` lays out four headings, each followed by its text, and then `tail`, one after
      another: every piece sits at the offset the lengths before it add up to, and
      nothing follows the tail. */
  predicate SectionsAt(m: string, h1: string, t1: string, h2: string, t2: string,
                       h3: string, t3: string, h4: string, t4: string, tail: string) {
    var a2 := |h1| + |t1|;
    var a3 := a2 + |h2| + |t2|;
    var a4 := a3 + |h3| + |t3|;
    && HoldsAt(m, 0, h1) && HoldsAt(m, |h1|, t1)
    && HoldsAt(m, a2, h2) && HoldsAt(m, a2 + |h2|, t2)
    && HoldsAt(m, a3, h3) && HoldsAt(m, a3 + |h3|, t3)
    && HoldsAt(m, a4, h4) && HoldsAt(m, a4 + |h4|, t4)
    && HoldsAt(m, a4 + |h4| + |t4|, tail) && |m| == a4 + |h4| + |t4| + |tail|
  }

  /** Four headed sections and a tail, laid out in order. */
  function Sections(h1: string, t1: string, h2: string, t2: string, h3: string, t3: string,
                    h4: string, t4: string, tail: string): (m: string)
    ensures SectionsAt(m, h1, t1, h2, t2, h3, t3, h4, t4, tail)
  {
    var r4 := Labelled(h4, t4, tail);
    var r3 := Labelled(h3, t3, r4);
    var r2 := Labelled(h2, t2, r3);
    var m := Labelled(h1, t1, r2);
    SectionsOfLayers(m, h1, t1, h2, t2, h3, t3, h4, t4, tail, r2, r3, r4);
    m
  }

  /** Sections laid out as nested layers of heading, text and rest hold every piece at
      its offset in the whole. */
  lemma SectionsOfLayers(m: string, h1: string, t1: string, h2: string, t2: string, h3: string, t3: string,
                         h4: string, t4: string, tail: string, r2: string, r3: string, r4: string)
    requires HoldsAt(m, 0, h1) && HoldsAt(m, |h1|, t1) && HoldsAt(m, |h1| + |t1|, r2)
    requires |m| == |h1| + |t1| + |r2|
    requires HoldsAt(r2, 0, h2) && HoldsAt(r2, |h2|, t2) && HoldsAt(r2, |h2| + |t2|, r3)
    requires |r2| == |h2| + |t2| + |r3|
    requires HoldsAt(r3, 0, h3) && HoldsAt(r3, |h3|, t3) && HoldsAt(r3, |h3| + |t3|, r4)
    requires |r3| == |h3| + |t3| + |r4|
    requires HoldsAt(r4, 0, h4) && HoldsAt(r4, |h4|, t4) && HoldsAt(r4, |h4| + |t4|, tail)
    requires |r4| == |h4| + |t4| + |tail|
    ensures SectionsAt(m, h1, t1, h2, t2, h3, t3, h4, t4, tail)
  {
    var a2 := |h1| + |t1|;
    var a3 := a2 + |h2| + |t2|;
    var a4 := a3 + |h3| + |t3|;
    LayerWithin(m, a2, r2, h2, t2, r3);
    HoldsWithin(m, a2, r2, |h2| + |t2|, r3);
    LayerWithin(m, a3, r3, h3, t3, r4);
    HoldsWithin(m, a3, r3, |h3| + |t3|, r4);
    LayerWithin(m, a4, r4, h4, t4, tail);
  }

  /** A layer of heading, text and rest, held at `at`, puts each of its pieces at its
      offset from `at`. */
  lemma LayerWithin(m: string, at: nat, layer: string, heading: string, text: string, rest: string)
    requires HoldsAt(m, at, layer)
    requires HoldsAt(layer, 0, heading) && HoldsAt(layer, |heading|, text) && HoldsAt(layer, |heading| + |text|, rest)
    ensures HoldsAt(m, at, heading) && HoldsAt(m, at + |heading|, text) && HoldsAt(m, at + |heading| + |text|, rest)
  {
    HoldsWithin(m, at, layer, 0, heading);
    HoldsWithin(m, at, layer, |heading|, text);
    HoldsWithin(m, at, layer, |heading| + |text|, rest);
  }

  const RevisionHead: string := "REVISION REQUEST\n\nCurrent Script:\nTitle: "

  /** The revision request: the current title and the edited hook, body and CTA, each
      after its label, then the user's feedback followed by the fixed instruction, which
      ends the request. */
  function RevisionRequest(title: string, hook: string, body: string, cta: string, feedback: string): (m: string)
    ensures SectionsAt(m, RevisionHead, title, "\nHook: ", hook, "\nBody: ", body, "\nCTA: ", cta,
                       "\n\nUser Feedback: " + feedback + RevisionInstruction)
  {
    Sections(RevisionHead, title, "\nHook: ", hook, "\nBody: ", body, "\nCTA: ", cta,
             "\n\nUser Feedback: " + feedback + RevisionInstruction)
  }

  /** The video-script request: the approved title and the edited hook, body and CTA,
      each after its heading, then the estimated duration, which ends the request. */
  function VideoScriptRequest(title: string, hook: string, body: string, cta: string, duration: string): (m: string)
    ensures SectionsAt(m, "Title: ", title, "\n\nHOOK:\n", hook, "\n\nBODY:\n", body, "\n\nCTA:\n", cta,
                       "\n\nEstimated Duration: " + duration)
  {
    Sections("Title: ", title, "\n\nHOOK:\n", hook, "\n\nBODY:\n", body, "\n\nCTA:\n", cta,
             "\n\nEstimated Duration: " + duration)
  }

  /** The attempts of one handler's loop: the same request to the same agent each time. */
  function Attempts(env: Env, request: string, agentId: string): nat -> AgentOutcome {
    (k: nat) => env.agent(request, agentId, k)
  }

  /** Some attempt of the loop, among the `MaxRetries + 1` it may make, is usable. */
  predicate SomeAttemptUsable<T>(env: Env, request: string, agentId: string, coerce: Value -> Option<T>) {
    exists j :: 0 <= j <= MaxRetries && Usable(env.agent(request, agentId, j), coerce)
  }

  /** `v` is what the first usable attempt of the loop coerces to. */
  predicate FirstUsableGives<T(==)>(env: Env, request: string, agentId: string, coerce: Value -> Option<T>, v: T) {
    exists j :: 0 <= j <= MaxRetries && Usable(env.agent(request, agentId, j), coerce)
      && coerce(env.agent(request, agentId, j).reply) == Some(v)
      && forall i :: 0 <= i < j ==> !Usable(env.agent(request, agentId, i), coerce)
  }

  /** The loop as one of the handlers runs it: it succeeds exactly when some attempt is
      usable, with what the first usable attempt coerces to, and otherwise reports the
      last attempt's error followed by " Please try again.". */
  function RunLoop<T(==)>(env: Env, request: string, agentId: string, coerce: Value -> Option<T>, msgs: Messages): (r: Run<T>)
    ensures r.result.Success? <==> SomeAttemptUsable(env, request, agentId, coerce)
    ensures r.result.Success? ==> FirstUsableGives(env, request, agentId, coerce, r.result.value)
    ensures r.result.Failure? ==>
      r.result.error == AttemptError(env.agent(request, agentId, MaxRetries), coerce, msgs) + TryAgain
  {
    var attempt := Attempts(env, request, agentId);
    var r := CallWithRetry(attempt, coerce, msgs, MaxRetries);
    assert forall j :: attempt(j) == env.agent(request, agentId, j);
    if r.result.Success? then
      var j := r.calls - 1;
      assert Usable(env.agent(request, agentId, j), coerce);
      assert forall i :: 0 <= i < j ==> !Usable(env.agent(request, agentId, i), coerce);
      r
    else
      r
  }

  /** The message a failed loop leaves: the last attempt's error and " Please try again.". */
  function FailureMessage<T>(env: Env, request: string, agentId: string, coerce: Value -> Option<T>, msgs: Messages): string {
    AttemptError(env.agent(request, agentId, MaxRetries), coerce, msgs) + TryAgain
  }

  // ---------------------------------------------------------------------------
  // Handlers
  // ---------------------------------------------------------------------------

  /** The guard of `handleGenerateScript`. */
  predicate CanGenerate(s: State) {
    !IsBlank(s.contentIdea) && !s.isGeneratingScript
  }

  /** `handleGenerateScript`. */
  function GenerateScript(s: State, env: Env): (t: State)
    ensures !CanGenerate(s) ==> t == s
    ensures CanGenerate(s) ==>
      var request := GenerateRequest(s.contentType, s.contentIdea, s.notes);
      && t.(scriptData := s.scriptData, editableHook := s.editableHook, editableBody := s.editableBody,
            editableCta := s.editableCta, scriptStatus := s.scriptStatus, scriptErrorMessage := s.scriptErrorMessage,
            videoScriptData := s.videoScriptData, revisionInput := s.revisionInput,
            activeAgentId := s.activeAgentId) == s
      && t.scriptStatus == Draft && t.videoScriptData.None? && t.revisionInput == ""
      && !t.isGeneratingScript && t.activeAgentId.None?
      && (t.scriptData.Some? <==> SomeAttemptUsable(env, request, ScriptAgentId, ScriptCoercion(env.parse)))
      && (t.scriptData.Some? ==>
            && FirstUsableGives(env, request, ScriptAgentId, ScriptCoercion(env.parse), t.scriptData.value)
            && t.editableHook == t.scriptData.value.hook && t.editableBody == t.scriptData.value.body
            && t.editableCta == t.scriptData.value.cta && t.scriptErrorMessage == "")
      && (t.scriptData.None? ==>
            && t.editableHook == s.editableHook && t.editableBody == s.editableBody
            && t.editableCta == s.editableCta
            && t.scriptErrorMessage ==
                 FailureMessage(env, request, ScriptAgentId, ScriptCoercion(env.parse), GenerateMessages))
  {
    if !CanGenerate(s) then s
    else
      var request := GenerateRequest(s.contentType, s.contentIdea, s.notes);
      var run := RunLoop(env, request, ScriptAgentId, ScriptCoercion(env.parse), GenerateMessages);
      var started := s.(scriptData := None, scriptStatus := Draft, scriptErrorMessage := "",
                        videoScriptData := None, revisionInput := "");
      match run.result
      case Success(sd) =>
        started.(scriptData := Some(sd), editableHook := sd.hook, editableBody := sd.body,
                 editableCta := sd.cta, isGeneratingScript := false, activeAgentId := None)
      case Failure(message) =>
        started.(scriptErrorMessage := message, isGeneratingScript := false, activeAgentId := None)
  }

  /** The guard of `handleReviseScript`. */
  predicate CanRevise(s: State) {
    !IsBlank(s.revisionInput) && !s.isRevising && s.scriptData.Some?
  }

  /** `handleReviseScript`. */
  function ReviseScript(s: State, env: Env): (t: State)
    ensures !CanRevise(s) ==> t == s
    ensures CanRevise(s) ==>
      var request := RevisionRequest(s.scriptData.value.title, s.editableHook, s.editableBody,
                                     s.editableCta, s.revisionInput);
      && t.(scriptData := s.scriptData, editableHook := s.editableHook, editableBody := s.editableBody,
            editableCta := s.editableCta, scriptErrorMessage := s.scriptErrorMessage,
            revisionInput := s.revisionInput, activeAgentId := s.activeAgentId) == s
      && !t.isRevising && t.activeAgentId.None? && t.scriptData.Some?
      && (t.revisionInput == "" <==> SomeAttemptUsable(env, request, ScriptAgentId, ScriptCoercion(env.parse)))
      && (SomeAttemptUsable(env, request, ScriptAgentId, ScriptCoercion(env.parse)) ==>
            && FirstUsableGives(env, request, ScriptAgentId, ScriptCoercion(env.parse), t.scriptData.value)
            && t.revisionInput == "" && t.scriptErrorMessage == ""
            && t.editableHook == t.scriptData.value.hook && t.editableBody == t.scriptData.value.body
            && t.editableCta == t.scriptData.value.cta)
      && (!SomeAttemptUsable(env, request, ScriptAgentId, ScriptCoercion(env.parse)) ==>
            && t.scriptData == s.scriptData && t.revisionInput == s.revisionInput
            && t.editableHook == s.editableHook && t.editableBody == s.editableBody
            && t.editableCta == s.editableCta
            && t.scriptErrorMessage ==
                 FailureMessage(env, request, ScriptAgentId, ScriptCoercion(env.parse), ReviseMessages))
  {
    if !CanRevise(s) then s
    else
      var request := RevisionRequest(s.scriptData.value.title, s.editableHook, s.editableBody,
                                     s.editableCta, s.revisionInput);
      var run := RunLoop(env, request, ScriptAgentId, ScriptCoercion(env.parse), ReviseMessages);
      var started := s.(scriptErrorMessage := "");
      match run.result
      case Success(sd) =>
        started.(scriptData := Some(sd), editableHook := sd.hook, editableBody := sd.body,
                 editableCta := sd.cta, revisionInput := "", isRevising := false, activeAgentId := None)
      case Failure(message) =>
        started.(scriptErrorMessage := message, isRevising := false, activeAgentId := None)
  }

  /** The three text areas of the studio. */
  datatype Field = HookField | BodyField | CtaField

  /** Typing into one text area; the areas accept input only while the script is a draft. */
  function EditScript(s: State, field: Field, value: string): (t: State)
    ensures s.scriptStatus == Approved ==> t == s
    ensures s.scriptStatus == Draft ==>
      && t.editableHook == (if field == HookField then value else s.editableHook)
      && t.editableBody == (if field == BodyField then value else s.editableBody)
      && t.editableCta == (if field == CtaField then value else s.editableCta)
      && t.(editableHook := s.editableHook, editableBody := s.editableBody, editableCta := s.editableCta) == s
  {
    if s.scriptStatus == Approved then s
    else
      match field
      case HookField => s.(editableHook := value)
      case BodyField => s.(editableBody := value)
      case CtaField => s.(editableCta := value)
  }

  /** `handleApproveScript`. `id` and `now` stand for `Date.now()` and the ISO timestamp. */
  function ApproveScript(s: State, id: string, now: string): (t: State)
    ensures s.scriptData.None? ==> t == s
    ensures s.scriptData.Some? ==>
      && |t.history| == |s.history| + 1 && t.history[1..] == s.history
      && t.history[0].id == id && t.history[0].createdAt == now
      && t.history[0].status == ItemApproved && t.history[0].promptData.None?
      && t.history[0].contentIdea == s.contentIdea && t.history[0].contentType == s.contentType
      && t.history[0].notes == s.notes
      && t.scriptData.Some? && t.history[0].scriptData == t.scriptData
      && t.scriptData.value.hook == s.editableHook && t.scriptData.value.body == s.editableBody
      && t.scriptData.value.cta == s.editableCta
      && t.scriptData.value.title == s.scriptData.value.title
      && t.scriptData.value.estimatedDuration == s.scriptData.value.estimatedDuration
      && t.scriptStatus == Approved && t.revisionInput == "" && t.activeTab == VideoScriptTab
      && SavedAs(s, t)
      && t.(scriptData := s.scriptData, scriptStatus := s.scriptStatus, revisionInput := s.revisionInput,
            history := s.history, storage := s.storage, activeTab := s.activeTab) == s
  {
    if s.scriptData.None? then s
    else
      var snapshot := s.scriptData.value.(hook := s.editableHook, body := s.editableBody, cta := s.editableCta);
      var item := HistoryItem(id, s.contentIdea, s.contentType, s.notes, Some(snapshot), None, ItemApproved, now);
      var approved := s.(scriptData := Some(snapshot), scriptStatus := Approved, revisionInput := "");
      SaveHistory(approved, [item] + s.history).(activeTab := VideoScriptTab)
  }

  /** The entries a new video script is attached to: same idea text, still approved. */
  predicate AwaitsVideoScript(item: HistoryItem, idea: string) {
    item.contentIdea == idea && item.status == ItemApproved
  }

  /** The `history.map` of `handleGeneratePrompt`: every awaiting entry, not only the
      first, gets the video script and the status `PromptGenerated`; the others are kept. */
  function AttachVideoScript(h: seq<HistoryItem>, idea: string, v: VideoScript): (r: seq<HistoryItem>)
    ensures |r| == |h|
    ensures forall i :: 0 <= i < |h| && AwaitsVideoScript(h[i], idea) ==>
      r[i] == h[i].(promptData := Some(v), status := PromptGenerated)
    ensures forall i :: 0 <= i < |h| && !AwaitsVideoScript(h[i], idea) ==> r[i] == h[i]
  {
    if |h| == 0 then []
    else
      var head := if AwaitsVideoScript(h[0], idea) then h[0].(promptData := Some(v), status := PromptGenerated) else h[0];
      [head] + AttachVideoScript(h[1..], idea, v)
  }

  /** The guard of `handleGeneratePrompt`. */
  predicate CanGenerateVideoScript(s: State) {
    s.scriptData.Some? && s.scriptStatus == Approved && !s.isGeneratingPrompt
  }

  /** `handleGeneratePrompt`. */
  function GenerateVideoScript(s: State, env: Env): (t: State)
    ensures !CanGenerateVideoScript(s) ==> t == s
    ensures CanGenerateVideoScript(s) ==>
      var sd := s.scriptData.value;
      var request := VideoScriptRequest(sd.title, s.editableHook, s.editableBody, s.editableCta, sd.estimatedDuration);
      && t.(videoScriptData := s.videoScriptData, promptErrorMessage := s.promptErrorMessage,
            history := s.history, storage := s.storage, activeAgentId := s.activeAgentId) == s
      && !t.isGeneratingPrompt && t.activeAgentId.None?
      && (t.videoScriptData.Some? <==> SomeAttemptUsable(env, request, VideoAgentId, VideoScriptCoercion(env.parse)))
      && (t.videoScriptData.Some? ==>
            && FirstUsableGives(env, request, VideoAgentId, VideoScriptCoercion(env.parse), t.videoScriptData.value)
            && IsGenerated(t.videoScriptData.value) && t.promptErrorMessage == ""
            && t.history == AttachVideoScript(s.history, s.contentIdea, t.videoScriptData.value)
            && SavedAs(s, t))
      && (t.videoScriptData.None? ==>
            && t.history == s.history && t.storage == s.storage
            && t.promptErrorMessage ==
                 FailureMessage(env, request, VideoAgentId, VideoScriptCoercion(env.parse), VideoScriptMessages))
  {
    if !CanGenerateVideoScript(s) then s
    else
      var sd := s.scriptData.value;
      var request := VideoScriptRequest(sd.title, s.editableHook, s.editableBody, s.editableCta, sd.estimatedDuration);
      var run := RunLoop(env, request, VideoAgentId, VideoScriptCoercion(env.parse), VideoScriptMessages);
      var started := s.(videoScriptData := None, promptErrorMessage := "");
      match run.result
      case Success(v) =>
        SaveHistory(started.(videoScriptData := Some(v)), AttachVideoScript(s.history, s.contentIdea, v))
          .(isGeneratingPrompt := false, activeAgentId := None)
      case Failure(message) =>
        started.(promptErrorMessage := message, isGeneratingPrompt := false, activeAgentId := None)
  }

  /** `handleReuseIdea`: the entry's inputs come back into the studio and everything
      generated from them is dropped; history and error messages stay. */
  function ReuseIdea(s: State, item: HistoryItem): (t: State)
    ensures t.contentIdea == item.contentIdea && t.contentType == item.contentType && t.notes == item.notes
    ensures t.scriptData.None? && t.videoScriptData.None? && t.scriptStatus == Draft
    ensures t.editableHook == "" && t.editableBody == "" && t.editableCta == "" && t.revisionInput == ""
    ensures t.activeTab == StudioTab
    ensures t.(contentIdea := s.contentIdea, contentType := s.contentType, notes := s.notes,
               scriptData := s.scriptData, editableHook := s.editableHook, editableBody := s.editableBody,
               editableCta := s.editableCta, scriptStatus := s.scriptStatus,
               videoScriptData := s.videoScriptData, revisionInput := s.revisionInput,
               activeTab := s.activeTab) == s
  {
    s.(contentIdea := item.contentIdea, contentType := item.contentType, notes := item.notes,
       scriptData := None, editableHook := "", editableBody := "", editableCta := "",
       scriptStatus := Draft, videoScriptData := None, revisionInput := "", activeTab := StudioTab)
  }

  /** `handleClearHistory`. */
  function ClearHistory(s: State): (t: State)
    ensures t.history == [] && SavedAs(s, t)
    ensures !s.showSample ==> LoadHistory(t.storage) == Some([])
    ensures t.(history := s.history, storage := s.storage) == s
  {
    SaveHistory(s, [])
  }

  /** The sample-mode effect: turning it on shows the fixtures (persisting nothing),
      turning it off resets the studio and reloads the history from storage. */
  function ApplySampleMode(s: State, on: bool, sample: Fixture): (t: State)
    ensures t.showSample == on && t.storage == s.storage && t.revisionInput == "" && !t.isRevising
    ensures on ==>
      && t.contentIdea == sample.contentIdea && t.contentType == sample.contentType && t.notes == sample.notes
      && t.history == sample.history && t.scriptStatus == Approved
      && t.scriptData == Some(sample.script) && t.videoScriptData == Some(sample.videoScript)
      && t.editableHook == sample.script.hook && t.editableBody == sample.script.body
      && t.editableCta == sample.script.cta
    ensures !on ==>
      && t.history == LoadHistory(s.storage).GetOr([]) && t.scriptStatus == Draft
      && t.scriptData.None? && t.videoScriptData.None? && t.contentIdea == ""
      && t.contentType == DefaultContentType && t.notes == ""
      && t.editableHook == "" && t.editableBody == "" && t.editableCta == ""
    ensures t.(showSample := s.showSample, contentIdea := s.contentIdea, contentType := s.contentType,
               notes := s.notes, scriptData := s.scriptData, editableHook := s.editableHook,
               editableBody := s.editableBody, editableCta := s.editableCta, scriptStatus := s.scriptStatus,
               videoScriptData := s.videoScriptData, history := s.history, revisionInput := s.revisionInput,
               isRevising := s.isRevising) == s
  {
    if on then
      s.(showSample := true, contentIdea := sample.contentIdea, contentType := sample.contentType,
         notes := sample.notes, scriptData := Some(sample.script), editableHook := sample.script.hook,
         editableBody := sample.script.body, editableCta := sample.script.cta, scriptStatus := Approved,
         videoScriptData := Some(sample.videoScript), history := sample.history, revisionInput := "",
         isRevising := false)
    else
      s.(showSample := false, contentIdea := "", contentType := DefaultContentType, notes := "",
         scriptData := None, editableHook := "", editableBody := "", editableCta := "",
         scriptStatus := Draft, videoScriptData := None, revisionInput := "", isRevising := false,
         history := LoadHistory(s.storage).GetOr([]))
  }

  /** The sample switch: the effect re-runs only when the value changes. */
  function ToggleSample(s: State, on: bool, sample: Fixture): (t: State)
    ensures on == s.showSample ==> t == s
    ensures on != s.showSample ==> t == ApplySampleMode(s, on, sample)
    ensures t.showSample == on && t.storage == s.storage
  {
    if on == s.showSample then s else ApplySampleMode(s, on, sample)
  }

  /** The page after mounting with `slot` in storage: the initial `useState` values, then
      the loading effect, then the sample effect (which runs once with sample mode off). */
  function Initial(slot: StoredHistory, sample: Fixture): (s: State)
    ensures s.history == LoadHistory(slot).GetOr([]) && s.storage == slot && !s.showSample
    ensures s.scriptData.None? && s.videoScriptData.None? && s.scriptStatus == Draft
  {
    var start := State(StudioTab, false, "", DefaultContentType, "", false, "", None, "", "", "", Draft,
                       "", false, false, None, "", [], None, slot);
    var loaded := match LoadHistory(slot) case Some(items) => start.(history := items) case None => start;
    ApplySampleMode(loaded, false, sample)
  }

  /** The studio inputs a user types into or picks directly. */
  datatype Input = IdeaInput | TypeInput | NotesInput | FeedbackInput

  /** The plain setters of the idea, content type, notes and feedback inputs: exactly the
      chosen input takes the value. */
  function SetInput(s: State, input: Input, value: string): (t: State)
    ensures t.contentIdea == (if input == IdeaInput then value else s.contentIdea)
    ensures t.contentType == (if input == TypeInput then value else s.contentType)
    ensures t.notes == (if input == NotesInput then value else s.notes)
    ensures t.revisionInput == (if input == FeedbackInput then value else s.revisionInput)
    ensures t.(contentIdea := s.contentIdea, contentType := s.contentType, notes := s.notes,
               revisionInput := s.revisionInput) == s
  {
    match input
    case IdeaInput => s.(contentIdea := value)
    case TypeInput => s.(contentType := value)
    case NotesInput => s.(notes := value)
    case FeedbackInput => s.(revisionInput := value)
  }

  /** The tab bar and the "go to studio" link: only the tab changes. */
  function SelectTab(s: State, tab: Tab): (t: State)
    ensures t.activeTab == tab && t.(activeTab := s.activeTab) == s
  {
    s.(activeTab := tab)
  }

  // ---------------------------------------------------------------------------
  // The session as a sequence of user actions
  // ---------------------------------------------------------------------------

  datatype Action =
    | GenerateClicked
    | ReviseClicked
    | Edited(field: Field, value: string)
    | Typed(input: Input, value: string)
    | TabSelected(tab: Tab)
    | ApproveClicked(id: string, now: string)
    | GenerateVideoScriptClicked
    | ReuseClicked(item: HistoryItem)
    | ClearClicked
    | SampleSwitched(on: bool)

  function Step(s: State, a: Action, env: Env): State {
    match a
    case GenerateClicked => GenerateScript(s, env)
    case ReviseClicked => ReviseScript(s, env)
    case Edited(f, v) => EditScript(s, f, v)
    case Typed(i, v) => SetInput(s, i, v)
    case TabSelected(tab) => SelectTab(s, tab)
    case ApproveClicked(id, now) => ApproveScript(s, id, now)
    case GenerateVideoScriptClicked => GenerateVideoScript(s, env)
    case ReuseClicked(item) => ReuseIdea(s, item)
    case ClearClicked => ClearHistory(s)
    case SampleSwitched(on) => ToggleSample(s, on, env.sample)
  }

  function RunActions(s: State, actions: seq<Action>, env: Env): State
    decreases |actions|
  {
    if |actions| == 0 then s else RunActions(Step(s, actions[0], env), actions[1..], env)
  }

  /** An entry's status agrees with what it carries. */
  predicate WellFormedItem(item: HistoryItem) {
    && (item.status != ItemDraft ==> item.scriptData.Some?)
    && (item.status == PromptGenerated ==> item.promptData.Some?)
  }

  predicate WellFormedHistory(h: seq<HistoryItem>) {
    forall i :: 0 <= i < |h| ==> WellFormedItem(h[i])
  }

  predicate WellFormedSlot(slot: StoredHistory) {
    slot.Entries? ==> WellFormedHistory(slot.items)
  }

  /** What holds between two user actions: nothing is in flight, an approved status
      always has its script, a video script exists only for an approved script, the
      history and the slot are well formed, and outside sample mode the history shown
      is the history stored. */
  predicate Invariant(s: State) {
    && !s.isGeneratingScript && !s.isRevising && !s.isGeneratingPrompt && s.activeAgentId.None?
    && (s.scriptStatus == Approved ==> s.scriptData.Some?)
    && (s.videoScriptData.Some? ==> s.scriptStatus == Approved)
    && WellFormedHistory(s.history)
    && WellFormedSlot(s.storage)
    && (!s.showSample ==> s.history == LoadHistory(s.storage).GetOr([]))
  }

  lemma {:induction false} AttachKeepsWellFormed(h: seq<HistoryItem>, idea: string, v: VideoScript)
    requires WellFormedHistory(h)
    ensures WellFormedHistory(AttachVideoScript(h, idea, v))
  {
    var r := AttachVideoScript(h, idea, v);
    forall i | 0 <= i < |r|
      ensures WellFormedItem(r[i])
    {
      assert WellFormedItem(h[i]);
    }
  }

  lemma GenerateKeepsInvariant(s: State, env: Env)
    requires Invariant(s)
    ensures Invariant(GenerateScript(s, env))
  {
  }

  lemma ReviseKeepsInvariant(s: State, env: Env)
    requires Invariant(s)
    ensures Invariant(ReviseScript(s, env))
  {
  }

  /** Approving prepends a well-formed entry and saves the list it shows. */
  lemma ApproveKeepsInvariant(s: State, id: string, now: string)
    requires Invariant(s)
    ensures Invariant(ApproveScript(s, id, now))
  {
    var t := ApproveScript(s, id, now);
    if s.scriptData.Some? {
      assert t.history == [t.history[0]] + s.history;
      assert WellFormedItem(t.history[0]);
    }
  }

  /** A generated video script is attached to entries that become well formed, and the
      list shown is the list saved; a failed run keeps history and storage. */
  lemma VideoScriptKeepsInvariant(s: State, env: Env)
    requires Invariant(s)
    ensures Invariant(GenerateVideoScript(s, env))
  {
    var t := GenerateVideoScript(s, env);
    if CanGenerateVideoScript(s) {
      VideoScriptKeepsFlags(s, env);
      if t.videoScriptData.Some? {
        AttachKeepsWellFormed(s.history, s.contentIdea, t.videoScriptData.value);
      }
    }
  }

  /** A video-script run leaves nothing in flight and keeps the script, its status and
      the sample flag. */
  lemma VideoScriptKeepsFlags(s: State, env: Env)
    requires CanGenerateVideoScript(s) && !s.isGeneratingScript && !s.isRevising
    ensures var t := GenerateVideoScript(s, env);
      && t.scriptStatus == s.scriptStatus && t.scriptData == s.scriptData && t.showSample == s.showSample
      && !t.isGeneratingScript && !t.isRevising && !t.isGeneratingPrompt && t.activeAgentId.None?
  {
  }

  lemma SampleKeepsInvariant(s: State, on: bool, sample: Fixture)
    requires Invariant(s) && WellFormedHistory(sample.history)
    ensures Invariant(ToggleSample(s, on, sample))
  {
  }

  /** Every handler keeps the invariant. */
  lemma StepKeepsInvariant(s: State, a: Action, env: Env)
    requires Invariant(s) && WellFormedHistory(env.sample.history)
    ensures Invariant(Step(s, a, env))
  {
    match a
    case GenerateClicked => GenerateKeepsInvariant(s, env);
    case ReviseClicked => ReviseKeepsInvariant(s, env);
    case Edited(f, v) =>
    case Typed(i, v) =>
    case TabSelected(tab) =>
    case ApproveClicked(id, now) => ApproveKeepsInvariant(s, id, now);
    case GenerateVideoScriptClicked => VideoScriptKeepsInvariant(s, env);
    case ReuseClicked(item) =>
    case ClearClicked =>
    case SampleSwitched(on) => SampleKeepsInvariant(s, on, env.sample);
  }

  /** The invariant holds after any sequence of user actions. */
  lemma {:induction false} RunKeepsInvariant(s: State, actions: seq<Action>, env: Env)
    requires Invariant(s) && WellFormedHistory(env.sample.history)
    ensures Invariant(RunActions(s, actions, env))
    decreases |actions|
  {
    if |actions| > 0 {
      StepKeepsInvariant(s, actions[0], env);
      RunKeepsInvariant(Step(s, actions[0], env), actions[1..], env);
    }
  }

  /** A freshly mounted page satisfies the invariant when its slot is well formed. */
  lemma InitialInvariant(slot: StoredHistory, sample: Fixture)
    requires WellFormedSlot(slot)
    ensures Invariant(Initial(slot, sample))
  {
  }

  /** Approving and then generating a video script updates the new entry in place: the
      history keeps its length and, when a video script results, the first entry carries
      it with the status `PromptGenerated`. */
  lemma ApproveThenVideoScript(s: State, id: string, now: string, env: Env)
    requires s.scriptData.Some? && !s.isGeneratingPrompt
    ensures var a := ApproveScript(s, id, now);
      var t := GenerateVideoScript(a, env);
      && |t.history| == |a.history| == |s.history| + 1
      && (t.videoScriptData.Some? ==>
            t.history[0] == a.history[0].(promptData := t.videoScriptData, status := PromptGenerated))
  {
    var a := ApproveScript(s, id, now);
    assert AwaitsVideoScript(a.history[0], a.contentIdea);
  }

  /** Typing feedback and then clicking "revise" runs a revision on a script: it succeeds,
      clearing the feedback, exactly when some attempt of the loop is usable. */
  lemma TypeFeedbackThenRevise(s: State, feedback: string, env: Env)
    requires s.scriptData.Some? && !s.isRevising && !IsBlank(feedback)
    ensures var typed := Step(s, Typed(FeedbackInput, feedback), env);
      var t := Step(typed, ReviseClicked, env);
      var request := RevisionRequest(s.scriptData.value.title, s.editableHook, s.editableBody,
                                     s.editableCta, feedback);
      && CanRevise(typed)
      && (t.revisionInput == "" <==> SomeAttemptUsable(env, request, ScriptAgentId, ScriptCoercion(env.parse)))
  {
    var typed := SetInput(s, FeedbackInput, feedback);
    assert typed == s.(revisionInput := feedback);
    assert CanRevise(typed);
  }

  /** Clearing always empties the history, and outside sample mode the stored list too. */
  lemma ClearEmptiesStorage(s: State)
    requires !s.showSample
    ensures LoadHistory(ClearHistory(s).storage) == Some([])
  {
  }
}

=== FILE: text.dfy ===
/** The few JavaScript string primitives the page relies on: `trim`, `split('\n')`,
    `join`, and the ASCII case-insensitive prefix tests its regular expressions make. */
module Text {

  /** ECMAScript WhiteSpace and LineTerminator code points: the set `trim()` removes
      and `\s` matches. */
  predicate IsSpace(c: char) {
    || c == '\t' || c == '\n' || c == '\U{000B}' || c == '\U{000C}' || c == '\r'
    || c == ' ' || c == '\U{00A0}' || c == '\U{1680}'
    || ('\U{2000}' <= c <= '\U{200A}')
    || c == '\U{2028}' || c == '\U{2029}' || c == '\U{202F}' || c == '\U{205F}'
    || c == '\U{3000}' || c == '\U{FEFF}'
  }

  /** The characters a regular-expression `.` does not match. */
  predicate IsLineTerminator(c: char) {
    c == '\n' || c == '\r' || c == '\U{2028}' || c == '\U{2029}'
  }

  lemma LineTerminatorIsSpace(c: char)
    ensures IsLineTerminator(c) ==> IsSpace(c)
  {
  }

  predicate IsDigit(c: char) {
    '0' <= c <= '9'
  }

  /** ASCII lower-casing. A regular expression with the `i` flag and without `u` folds
      case through upper-casing but never lets a non-ASCII character fold onto an ASCII
      one, so for the ASCII letters of the page's patterns this is the whole story. */
  function Lower(c: char): char {
    if 'A' <= c <= 'Z' then (c as int + 32) as char else c
  }

  /** A string with nothing but white space in it (what `!s.trim()` tests). */
  predicate IsBlank(s: string) {
    forall i :: 0 <= i < |s| ==> IsSpace(s[i])
  }

  /** `s` has the lower-case pattern `p` at offset `i`, ignoring ASCII case. */
  predicate MatchesAt(s: string, i: nat, p: string) {
    i + |p| <= |s| && forall k :: i <= k < i + |p| ==> Lower(s[k]) == p[k - i]
  }

  /** `s` starts with the lower-case pattern `p`, ignoring ASCII case. */
  predicate StartsWithCI(s: string, p: string) {
    MatchesAt(s, 0, p)
  }

  /** `s.replace(/^\s+/, '')`: drops the leading white space and nothing else. */
  function TrimStart(s: string): (r: string)
    ensures |r| <= |s| && r == s[|s| - |r|..]
    ensures IsBlank(s[..|s| - |r|])
    ensures |r| > 0 ==> !IsSpace(r[0])
  {
    if |s| > 0 && IsSpace(s[0]) then TrimStart(s[1..]) else s
  }

  /** Drops the trailing white space and nothing else. */
  function TrimEnd(s: string): (r: string)
    ensures |r| <= |s| && r == s[..|r|]
    ensures IsBlank(s[|r|..])
    ensures |r| > 0 ==> !IsSpace(r[|r| - 1])
  {
    if |s| > 0 && IsSpace(s[|s| - 1]) then TrimEnd(s[..|s| - 1]) else s
  }

  /** `s.trim()`. */
  function Trim(s: string): string {
    TrimEnd(TrimStart(s))
  }

  /** `s.trim()` is empty exactly when `s` is blank. */
  lemma TrimEmptyIffBlank(s: string)
    ensures Trim(s) == [] <==> IsBlank(s)
  {
    var a := TrimStart(s);
    assert |a| > 0 ==> a[0] == s[|s| - |a|];
    if Trim(s) == [] {
      assert IsBlank(a[..|a|]);
      assert s == s[..|s| - |a|] + a;
    }
  }

  /** A string that starts and ends its first `n` characters with non-space characters
      keeps those `n` characters under `trim()`. */
  lemma TrimKeepsSolidStart(s: string, n: nat)
    requires 0 < n <= |s| && !IsSpace(s[0]) && !IsSpace(s[n - 1])
    ensures |Trim(s)| >= n && Trim(s)[..n] == s[..n]
  {
    assert TrimStart(s) == s;
    var r := TrimEnd(s);
    forall i | |r| <= i < |s|
      ensures IsSpace(s[i])
    {
      assert s[i] == s[|r|..][i - |r|];
    }
  }

  /** Position of the first `c` in `s`, or `|s|` when there is none. */
  function IndexOf(s: string, c: char): (i: nat)
    ensures i <= |s|
    ensures i < |s| ==> s[i] == c
    ensures c !in s[..i]
  {
    if |s| == 0 then 0
    else if s[0] == c then 0
    else 1 + IndexOf(s[1..], c)
  }

  /** `parts.join(sep)`. */
  function Join(parts: seq<string>, sep: string): string {
    if |parts| == 0 then ""
    else if |parts| == 1 then parts[0]
    else parts[0] + sep + Join(parts[1..], sep)
  }

  /** `s.split('\n')`: at least one piece, no piece holds a newline, and joining the
      pieces back with newlines gives `s`. */
  function SplitLines(s: string): (r: seq<string>)
    ensures |r| >= 1 && r[0] == s[..IndexOf(s, '\n')]
    ensures Join(r, "\n") == s
    ensures forall k :: 0 <= k < |r| ==> '\n' !in r[k]
    decreases |s|
  {
    var i := IndexOf(s, '\n');
    if i == |s| then [s]
    else
      var rest := SplitLines(s[i + 1..]);
      assert s == s[..i] + "\n" + s[i + 1..];
      [s[..i]] + rest
  }

  /** `lines.filter(l => l.trim())`: the lines that are not blank, in order. */
  function NonBlank(lines: seq<string>): (r: seq<string>)
    ensures |r| <= |lines|
    ensures forall k :: 0 <= k < |r| ==> !IsBlank(r[k]) && r[k] in lines
    ensures forall l :: l in lines && !IsBlank(l) ==> l in r
    ensures (forall k :: 0 <= k < |lines| ==> !IsBlank(lines[k])) ==> r == lines
    ensures |lines| > 0 && !IsBlank(lines[0]) ==> r[0] == lines[0]
  {
    if |lines| == 0 then []
    else if IsBlank(lines[0]) then NonBlank(lines[1..])
    else [lines[0]] + NonBlank(lines[1..])
  }
}

=== FILE: wrappers.dfy ===
/** Option and Result, used wherever the page works with `null` or an error string. */
module Wrappers {

  /** `None` plays the part of JavaScript's `null`. */
  datatype Option<+T> = None | Some(value: T) {

    /** The carried value, or `default` when there is none. */
    function GetOr(default: T): T {
      match this
      case Some(v) => v
      case None => default
    }
  }

  /** The outcome of an operation that ends either with a value or with a message for the user. */
  datatype Result<+R, +E> = Success(value: R) | Failure(error: E)
}
